=== FILE: README.md ===
# qr-frontend decision logic, in Dafny

This project models the React admin and staff console of the QR token queue
system (`qr-frontend`). The console is made of screens that fetch JSON and render
it. Its logic lives in small decision and formatting functions inside those
screens, and this project models them as pure functions:

- The three QR scan handlers, and how they relate:
  - the lenient staff page `ScanQRCode.jsx`;
  - the strict scanner page `scanner/Scanqrcode.jsx`;
  - the scan tab of the queue screen.
- The queue screen's token selection, the "call next" result and the manual-call
  guards.
- The daily report's CSV writer and export row shaping.
- The operational report's one-level flattening.
- The queue monitor's display and search rules, and its scanner-status query
  string.
- The scanner-status page's URL and response normalisation.
- The admin token search and the token generation guard.
- The staff form: validation, request payload, edit mapping and listing.
- The request interceptor that adds the bearer token.

JavaScript is modelled explicitly in module `Js`:

- A `Value` datatype covers `undefined`, `null`, booleans, integers, strings,
  arrays and objects. Objects are ordered key/value lists, because the order of
  `Object.keys`/`Object.entries` is observable in the CSV header and the
  flattened report.
- Truthiness follows JavaScript: `undefined`, `null`, `false`, `0` and `""` are
  falsy.
- `||` returns an operand, not a boolean.
- Property access on `null`/`undefined` throws a `TypeError` (`Get`/`Threw`).
  `?.` short-circuits to `undefined` (`OptProp`).

Module layout:

- `Base`: `Option` and `Result`.
- `Text`: `includes`, ASCII `toLowerCase`, `join`, `split` and decimal numerals.
- `Js`: the value model.
- `Lists`: `filter`, `find` and `map` over sequences.
- `Http`: requests, and the foreign parsers passed in as parameters.
- `Reader`: what the QR reader hands to a page.
- One module per screen: `LenientScan`, `StrictScan`, `ActiveQueue`,
  `ScanVariants`, `CsvReport`, `OperationalReport`, `Search`, `QueueMonitor`,
  `ScannerStatus`, `AdminTokens`, `StaffManagement` and `ApiClient`.

The model replaces the world outside these functions as follows:

- Every HTTP call becomes the `Http.Request` value the component would send:
  verb, path and ordered body.
- The backend's answer becomes a parameter. A handler that never reads the
  response body gets a `bool` (accepted or rejected). A handler that reads it gets
  a `Result`, carrying the response data or the error body. A success whose
  `null` body the handler dereferences is modelled as the throw it causes.
- `JSON.parse` is a function parameter `string -> Option<Value>`.
- `new URL(s).searchParams` is a function parameter
  `string -> Option<SearchParams>`.
- `localStorage`'s token is a parameter.

Three facts about the code shape the model:

- The `!tokenId` branch of the lenient scan (`ScanQRCode.jsx:39-43`, "Invalid QR
  Code") cannot be reached. The text guard at `ScanQRCode.jsx:16` lets only
  non-empty text through, and every later override is guarded by truthiness.
  `LenientScan.InvalidBranchUnreachable` proves this.
- The CSV writer of the daily report does no quoting. A field holding a comma or
  a line break changes the file's shape (`CsvReport.NoQuoting`), and the columns
  are fixed by the first row's keys.
- The staff page renders no staff form: `Staffs.jsx` has no input, select or
  submit handler, and its `showModal` and `errors` state is never read. So
  `handleChange`, `handleCategoryChange` and `handleSubmit` (`Staffs.jsx:56-97`)
  have no caller in this version. `StaffManagement.Validate` and
  `StaffManagement.Submit` model those handlers as written. `handleEdit` is
  reachable from the Edit button (`Staffs.jsx:209`).

## Model

| member | source | states |
|---|---|---|
| Reader.TextOf | qr-frontend/src/components/ScanQRCode.jsx:16-17 | A result that passes the `!!result?.text` guard has non-empty text. |
| LenientScan.FromFields | qr-frontend/src/components/ScanQRCode.jsx:17-26 | A truthy `token_id`/`category_id` field of the parsed payload replaces the identifier. A falsy one leaves the raw text as token id and `null` as category. |
| LenientScan.ApplyUrl | qr-frontend/src/components/ScanQRCode.jsx:28-34 | A falsy `url`, or one the URL parser rejects, leaves the identifiers unchanged. |
| LenientScan.Resolve | qr-frontend/src/components/ScanQRCode.jsx:17-37 | Text that is not JSON, or JSON whose field access throws, keeps the raw text and a `null` category. The category is always `null` or truthy. Non-empty text always resolves to a truthy token id. |
| LenientScan.Dispatch | qr-frontend/src/components/ScanQRCode.jsx:39-61 | A request is sent if and only if both identifiers are truthy, and it is exactly the manual call with them. The token is shown only when the call succeeds. |
| LenientScan.ClassifyNoise | qr-frontend/src/components/ScanQRCode.jsx:64-69 | A scanner error is swallowed if and only if its message contains "selectBestPatterns" or its name is "NotFoundException". Any other error is logged. |
| LenientScan.NoiseBySubstring | qr-frontend/src/components/ScanQRCode.jsx:64-69 | The message test is a substring test: any message containing "selectBestPatterns", whatever surrounds it and whatever the error's name, is swallowed. |
| LenientScan.HandleResult | qr-frontend/src/components/ScanQRCode.jsx:15-71 | A result with falsy text changes no state and sends nothing. Every request it sends is a POST to the manual-call path. The scanner-error verdict depends on the error alone. |
| LenientScan.TopLevelFieldsOverride | qr-frontend/src/components/ScanQRCode.jsx:25-26 | Without a truthy `url`, the payload's truthy fields win and falsy ones keep the prior values. |
| LenientScan.UrlParamsOverride | qr-frontend/src/components/ScanQRCode.jsx:28-34 | With a parseable `url`, a non-empty query parameter wins over the payload field. An absent or empty one keeps the field's value. |
| LenientScan.UnparseableUrlIgnored | qr-frontend/src/components/ScanQRCode.jsx:29-33 | An unparseable `url` leaves the identifiers the payload's fields gave. |
| LenientScan.InvalidBranchUnreachable | qr-frontend/src/components/ScanQRCode.jsx:16-43 | No scan ever sets the error to "Invalid QR Code". |
| LenientScan.CallIffCategory | qr-frontend/src/components/ScanQRCode.jsx:46-61 | A scan calls the backend exactly when the resolved category is truthy, with `loading` cleared afterwards. On failure the token stays unset and the error is "Failed to call token.". Without a category the token is shown and nothing is sent. |
| LenientScan.ExampleBareToken | qr-frontend/src/components/ScanQRCode.jsx:23-37 | A bare token id such as "ABC123" is shown as is, with no request. |
| LenientScan.ExampleUrlPayload | qr-frontend/src/components/ScanQRCode.jsx:28-34 | The query parameters of an embedded URL supply both identifiers of the call. |
| StrictScan.HandleScan | qr-frontend/src/components/scanner/Scanqrcode.jsx:14-35 | Empty data does nothing. Any other data is recorded and ends with `loading` off. A request is a POST of exactly two truthy fields, `token_id` then `category_id`. "Called" is reported only after a successful call. |
| StrictScan.OnResult | qr-frontend/src/components/scanner/Scanqrcode.jsx:66-69 | Without a result nothing happens. A present result runs the scan handler on its text. The camera-error toast is raised exactly when an error is present. |
| StrictScan.BothFieldsCall | qr-frontend/src/components/scanner/Scanqrcode.jsx:18-25 | JSON with both fields truthy sends one call with those values. A rejected call is reported as "not valid JSON". |
| StrictScan.MissingFieldInvalid | qr-frontend/src/components/scanner/Scanqrcode.jsx:19-28 | Parsed JSON missing either field is an invalid format, and nothing is sent. |
| StrictScan.NonJsonRejected | qr-frontend/src/components/scanner/Scanqrcode.jsx:18-31 | Text that is not JSON, or is JSON `null`, is reported as not JSON and nothing is sent. There is no raw-text fallback. |
| StrictScan.LoadingAlwaysCleared | qr-frontend/src/components/scanner/Scanqrcode.jsx:16-33 | Every non-empty scan records the raw text, clears `loading` and reports something. |
| ScanVariants.StrictCallImpliesLenientCall | qr-frontend/src/components/ScanQRCode.jsx:23-49 | For JSON without a truthy `url`, whenever the strict page calls, the lenient page sends the same call. |
| ScanVariants.LenientCallsWhereStrictRefuses | qr-frontend/src/components/scanner/Scanqrcode.jsx:19-28 | The converse fails. A payload carrying only a category is invalid for the strict page, while the lenient page calls with the raw text as token id. |
| ScanVariants.QueueTabMatchesStrict | qr-frontend/src/components/queue-manage/activequeue.jsx:283-297 | On non-empty text the queue screen's scan tab sends exactly the call the strict page sends, to its own path. |
| ScanVariants.QueueTabReportMatchesStrict | qr-frontend/src/components/queue-manage/activequeue.jsx:286-296 | On non-empty text the scan tab reports what the strict page reports for a successful call, whatever its own call's outcome, because it does not wait for the call. |
| ActiveQueue.ActiveList | qr-frontend/src/components/queue-manage/activequeue.jsx:39 | The list is the response itself if it is an array, else a truthy `results` (which must be an array), else empty. It throws exactly when the response is `null`/`undefined` or a non-array whose `results` is truthy but not an array. |
| ActiveQueue.FirstCalledSpec | qr-frontend/src/components/queue-manage/activequeue.jsx:40 | `find` returns the first item whose status is "called", or `null` when none is. It throws exactly when it reaches a `null` item before any called one. |
| ActiveQueue.FetchQueue | qr-frontend/src/components/queue-manage/activequeue.jsx:35-49 | The load fails exactly when there is no answer, the list cannot be read, or `find` throws, and then the state is kept. A successful load shows the list as read and attends its first called item, or `null`. |
| ActiveQueue.FetchArrayResponse | qr-frontend/src/components/queue-manage/activequeue.jsx:38-42 | An array response is shown as is, and its first called item becomes current. |
| ActiveQueue.FetchLoadedList | qr-frontend/src/components/queue-manage/activequeue.jsx:38-42 | For any readable answer, array or `{results}` page, the load fails exactly when a `null` item comes before every called one. Otherwise the list is shown and the first called item, or `null`, is attended. |
| ActiveQueue.PaginatedLikeArray | qr-frontend/src/components/queue-manage/activequeue.jsx:39 | A `{results: items}` page loads exactly like the bare array `items`. |
| ActiveQueue.CallNext | qr-frontend/src/components/queue-manage/activequeue.jsx:51-76 | A response naming a token makes it current, with category and name defaulting to "". Any other success clears `current`. A failure keeps it and raises a failure toast. |
| ActiveQueue.AttendingReadsBack | qr-frontend/src/components/queue-manage/activequeue.jsx:54-61 | Reading the attended record back gives the response's token id and status, and its category and name or "". |
| ActiveQueue.ManualCall | qr-frontend/src/components/queue-manage/activequeue.jsx:77-92 | A request is sent if and only if both inputs are truthy, and it carries exactly those two. Only a success with a body clears the inputs. A failure, or a success with a `null` body (whose toast throws), keeps them. |
| ActiveQueue.ManualCallResetBlocks | qr-frontend/src/components/queue-manage/activequeue.jsx:77-86 | After a successful call, calling again with the form's own inputs sends nothing. This is what `handleManualCall`'s default arguments would do; the only call site (activequeue.jsx:288) passes both. |
| ActiveQueue.ManualEntry | qr-frontend/src/components/queue-manage/activequeue.jsx:241-260 | An id that does not start with "MAN" is refused with no request. An accepted id is sent with `token_id` only. A success with a body clears the input and reports success. A success with a `null` body throws in the toast, so the form is kept with "Failed to manually call token.". A failure keeps the form. |
| ActiveQueue.ManualEntryResetBlocks | qr-frontend/src/components/queue-manage/activequeue.jsx:243-252 | After a successful entry, submitting again is refused by the "MAN" check. After a failure, the same request can be sent again. |
| ActiveQueue.FailureTextPrecedence | qr-frontend/src/components/queue-manage/activequeue.jsx:255-258 | A failed manual entry shows the backend's truthy `detail`, where "call next" shows its truthy `error`. With neither, each shows its own fallback text. |
| ActiveQueue.QrResult | qr-frontend/src/components/queue-manage/activequeue.jsx:283-297 | No result does nothing. A call switches to the "currently" tab and reports success, with the scanned token id first in the body. Anything else leaves the form and tab alone. |
| ActiveQueue.EmptyTextIsEmptyObject | qr-frontend/src/components/queue-manage/activequeue.jsx:286 | A result with no text, or empty text, is parsed as `{}` and reported as an invalid format. |
| Http.ParamGet | qr-frontend/src/components/ScanQRCode.jsx:31-32 | `searchParams.get` is `null` exactly when the name is absent. Otherwise it is the text of an entry with that name. |
| Http.ListOrResults | qr-frontend/src/components/queuemanagement.jsx:35 | An array response is used as is. Otherwise a truthy `results` is used, or else `[]`. A `null` body throws. |
| Http.WireFields | qr-frontend/src/components/admin/queuemonitor.jsx:72 | Serialisation keeps exactly the members whose value is not `undefined`. |
| Js.Or | qr-frontend/src/components/ScanQRCode.jsx:31 | `a \|\| b` is `a` when `a` is truthy, `b` otherwise. |
| Js.Get | qr-frontend/src/components/ScanQRCode.jsx:24-26 | Property access throws exactly on `null`/`undefined`. |
| Js.OptProp | qr-frontend/src/components/admin/adminqr.jsx:77 | `v?.k` is `undefined` on `null`/`undefined`, and the property otherwise. |
| Js.LookupPresent | qr-frontend/src/components/admin/DailyScanReport.jsx:18 | A missing key reads as `undefined`. A present key reads its first entry's value. |
| Js.Entries | qr-frontend/src/components/Reports/staffoperational.jsx:12 | `Object.entries` throws exactly on `null`/`undefined`. On an object it lists the fields in order. |
| Js.IndexedEntries | qr-frontend/src/components/Reports/staffoperational.jsx:14 | The entries of an array are its elements under their decimal index keys, in order. |
| Js.ArrayIndexProp | qr-frontend/src/components/Reports/staffoperational.jsx:14 | Reading an array under the key `String(i)` gives element `i`. |
| Js.ArrayJoinPieces | qr-frontend/src/components/admin/DailyScanReport.jsx:72 | `arr.join(sep)` joins one piece per element, and `null`/`undefined` elements give empty pieces. |
| Text.IncludesIff | qr-frontend/src/services/api.js:17 | `includes` holds exactly when the needle occurs at some position. |
| Text.LowerIncludes | qr-frontend/src/components/admin/adminqr.jsx:77-79 | Lower-casing both strings preserves containment. |
| Text.SplitJoin | qr-frontend/src/components/admin/DailyScanReport.jsx:14-25 | Splitting a join at its separator recovers the pieces when no piece contains the separator. |
| Text.JoinNotInjective | qr-frontend/src/components/admin/DailyScanReport.jsx:22 | Without quoting, two different rows can join to the same line. |
| Text.IndexKeyRoundTrip | qr-frontend/src/components/Reports/staffoperational.jsx:14 | Array index keys and their decimal rendering are inverse to each other. |
| Lists.Filter | qr-frontend/src/components/admin/queuemonitor.jsx:83 | The result is at most as long as the input. Every element kept comes from the input and satisfies the predicate. Every satisfying element is kept. |
| Lists.FilterAppend | qr-frontend/src/components/admin/queuemonitor.jsx:83 | Filtering distributes over concatenation, so relative order is kept. |
| Lists.FilterNarrower | qr-frontend/src/components/admin/queuemonitor.jsx:92-98 | Filtering by a weaker and then a stricter predicate is filtering by the stricter one. |
| Lists.Find | qr-frontend/src/components/admin/queuemonitor.jsx:84 | `find` is absent exactly when no element satisfies the predicate. Otherwise it is the first one that does. |
| Lists.MapAppend | qr-frontend/src/components/admin/queuemonitor.jsx:89-97 | Mapping distributes over concatenation. |
| CsvReport.Cell | qr-frontend/src/components/admin/DailyScanReport.jsx:18-20 | `null`/`undefined` become empty, and a string is written verbatim. |
| CsvReport.Cells | qr-frontend/src/components/admin/DailyScanReport.jsx:16-21 | One field per header key. Field `j` is the text of the row's value under header key `j`, blank when absent. |
| CsvReport.Lines | qr-frontend/src/components/admin/DailyScanReport.jsx:13-24 | The header line comes first, the first row's keys joined by commas. One data line per item follows, in item order. |
| CsvReport.JsonToCsv | qr-frontend/src/components/admin/DailyScanReport.jsx:10-11 | A missing or empty item list produces the empty string. |
| CsvReport.CsvRoundTrip | qr-frontend/src/components/admin/DailyScanReport.jsx:10-26 | When no key and no field holds a comma or line break, reading the text back gives the header line and one line per item, in order. The header splits into the first item's keys, and line `i + 1` splits into item `i`'s values in header order. |
| CsvReport.NoQuoting | qr-frontend/src/components/admin/DailyScanReport.jsx:18-22 | A field holding a comma is written bare and reads back as two fields. |
| CsvReport.FalsyValuesVerbatim | qr-frontend/src/components/admin/DailyScanReport.jsx:19-20 | `0` and `false` are written, not blanked; only `null`/`undefined` are blanked. |
| CsvReport.ExtraKeysDropped | qr-frontend/src/components/admin/DailyScanReport.jsx:15-22 | A key outside the header changes nothing in the row's fields. |
| CsvReport.StaffRow | qr-frontend/src/components/admin/DailyScanReport.jsx:60-66 | A staff summary becomes a row with the five staff columns in order. Each column reads its summary field: `Success` reads `success_verifications`, `Failed` reads `failed_verifications`, and so on. A `null` entry throws. |
| CsvReport.StaffCells | qr-frontend/src/components/admin/DailyScanReport.jsx:16-21 | Written under the staff header, a staff row's fields are the summary's fields, in column order. |
| CsvReport.CategoryRow | qr-frontend/src/components/admin/DailyScanReport.jsx:69-73 | A category becomes a row with `Category` from `category`, `Total_QR` from `total_qr`, and `staff_assigned` joined with ", ". It throws unless `staff_assigned` is an array. |
| CsvReport.MapRows | qr-frontend/src/components/admin/DailyScanReport.jsx:60 | A mapped list keeps one row per element. Any element that throws aborts the map. |
| CsvReport.SectionRows | qr-frontend/src/components/admin/DailyScanReport.jsx:59-73 | An absent section gives no rows. An array section is mapped element by element. Any other section throws. |
| CsvReport.ExportCsv | qr-frontend/src/components/admin/DailyScanReport.jsx:56-75 | A falsy report produces no file. A report that can be shaped always produces one. |
| CsvReport.CategoryRowBlank | qr-frontend/src/components/admin/DailyScanReport.jsx:16-22 | Under the staff header, a category row is five empty fields. |
| CsvReport.LayoutOfRows | qr-frontend/src/components/admin/DailyScanReport.jsx:75 | Staff rows followed by category rows give the staff header, then the staff lines, then ",,,," per category. |
| CsvReport.ExportLayout | qr-frontend/src/components/admin/DailyScanReport.jsx:59-75 | When staff rows exist, the exported file is the staff header, the staff lines and then one blank line per category. |
| CsvReport.CategoryOnlyHeader | qr-frontend/src/components/admin/DailyScanReport.jsx:68-75 | Without staff rows the header is "Category,Total_QR,Staff_Assigned". |
| OperationalReport.SectionRows | qr-frontend/src/components/Reports/staffoperational.jsx:13-22 | A scalar or `null` section gives one row under its own name. An object or array gives one row per entry, named section, arrow and sub-key, with the value copied. |
| OperationalReport.FlattenCount | qr-frontend/src/components/Reports/staffoperational.jsx:12-23 | The row count is the sum of the sections' weights: 1 per scalar, the entry count per object, so an empty object adds nothing. |
| OperationalReport.FlattenData | qr-frontend/src/components/Reports/staffoperational.jsx:10-25 | Flattening throws exactly on `null`/`undefined`. Numbers and booleans have no entries and give no rows. |
| OperationalReport.FlattenAppend | qr-frontend/src/components/Reports/staffoperational.jsx:12 | Flattening distributes over the section list. |
| OperationalReport.SectionInPlace | qr-frontend/src/components/Reports/staffoperational.jsx:12-23 | Each section's rows are contiguous, after every earlier section's rows and before every later one's. |
| OperationalReport.EveryRowFromASection | qr-frontend/src/components/Reports/staffoperational.jsx:13-22 | Only one level is flattened: every row is a section's scalar or one entry of a section, with the value unchanged. |
| OperationalReport.ArraySectionByIndex | qr-frontend/src/components/Reports/staffoperational.jsx:13-17 | An array section is flattened by index: sub-key `j` is the decimal `j`. |
| OperationalReport.ExampleFlatten | qr-frontend/src/components/Reports/staffoperational.jsx:10-25 | A worked example with a scalar section, an object section and an empty object section. |
| OperationalReport.Fetch | qr-frontend/src/components/Reports/staffoperational.jsx:27-40 | A successful load replaces the rows with the flattened answer and clears the error. A failed one keeps the rows and shows the failure text. |
| Search.FieldMatchesNarrower | qr-frontend/src/components/admin/queuemonitor.jsx:94-95 | A field matching a term also matches every substring of that term. |
| Search.FieldMatchesEmpty | qr-frontend/src/components/admin/adminqr.jsx:77-79 | The empty term matches exactly the present fields. |
| Search.FieldMatchesCaseBlind | qr-frontend/src/components/admin/queuemonitor.jsx:94-95 | The match ignores ASCII case in the term and in the field. |
| QueueMonitor.FirstCalledList | qr-frontend/src/components/admin/queuemonitor.jsx:84 | At most one token, present exactly when some token is called. |
| QueueMonitor.DisplayTokens | qr-frontend/src/components/admin/queuemonitor.jsx:82-86 | The waiting tokens come first, all of them, in order. The first called token, if any, comes after them and is last. Nothing else is shown. |
| QueueMonitor.DisplayedCalledIsFirst | qr-frontend/src/components/admin/queuemonitor.jsx:84-85 | The called token shown is the first called one in queue order. |
| QueueMonitor.NarrowAll | qr-frontend/src/components/admin/queuemonitor.jsx:89-97 | Each queue is narrowed in place, and the list length is kept. |
| QueueMonitor.FilteredLiveQueues | qr-frontend/src/components/admin/queuemonitor.jsx:89-98 | Each queue is non-empty and comes from a narrowed input queue. It shows only waiting or called tokens that match the term. Every input queue with a shown token is kept. |
| QueueMonitor.NarrowShowsOnlyMatches | qr-frontend/src/components/admin/queuemonitor.jsx:92-96 | Each token a narrowed queue shows matches by id or by its queue's category name. |
| QueueMonitor.LiveQueuesAppend | qr-frontend/src/components/admin/queuemonitor.jsx:89-98 | The queue order is preserved: filtering a concatenation concatenates the results. |
| QueueMonitor.CategoryMatchShowsAll | qr-frontend/src/components/admin/queuemonitor.jsx:95 | A queue whose category name matches shows all of its display tokens. |
| QueueMonitor.LongerTermNarrows | qr-frontend/src/components/admin/queuemonitor.jsx:92-96 | The tokens shown for a longer term are those shown for any substring of it that also match the longer one. |
| QueueMonitor.CompletedNeverShown | qr-frontend/src/components/admin/queuemonitor.jsx:83-96 | No search ever shows a completed token. |
| QueueMonitor.StatusParams | qr-frontend/src/components/admin/queuemonitor.jsx:111-114 | `status` is present exactly when the filter is non-empty and not "ALL". `from` and `to` are present exactly when non-empty. No other parameter appears, and they come in the order status, from, to. |
| QueueMonitor.MonitorStatusUrl | qr-frontend/src/components/admin/queuemonitor.jsx:111-116 | The URL starts with "scanner-status/", and it is exactly that path when no parameter is set. |
| QueueMonitor.MonitorQueryRoundTrip | qr-frontend/src/components/admin/queuemonitor.jsx:111-116 | After the "?", splitting at "&" gives back the parameters in order. |
| QueueMonitor.TokenLookup | qr-frontend/src/components/admin/queuemonitor.jsx:55-64 | Empty input sends nothing and keeps the status. Otherwise it sends exactly one POST of `{token_id}` to the verify path. The status becomes the answer on success and `null` on failure. |
| QueueMonitor.TokenLookupForgetsStatus | qr-frontend/src/components/admin/queuemonitor.jsx:56-63 | For non-empty input the new status does not depend on what was shown before. |
| QueueMonitor.Emergency | qr-frontend/src/components/admin/queuemonitor.jsx:67-79 | A POST to the emergency path with keys `action` and `category_id`, with the action as given. |
| QueueMonitor.EmergencyWire | qr-frontend/src/components/admin/queuemonitor.jsx:70-73 | An empty category sends no `category_id` on the wire. Any other category is sent. |
| ScannerStatus.ManagementStatusUrl | qr-frontend/src/components/queuemanagement.jsx:26-29 | The URL always starts with "/api/scanner-status/?" and ends in "?" or "&". |
| ScannerStatus.ManagementParams | qr-frontend/src/components/queuemanagement.jsx:27-29 | `verification_status` is present exactly when the filter is not "ALL". The dates are present exactly when non-empty. No other parameter appears, and they come in the order status, start date, end date. |
| ScannerStatus.UrlIsParams | qr-frontend/src/components/queuemanagement.jsx:26-29 | The URL is the base followed by each parameter in order, each terminated by "&". |
| ScannerStatus.ManagementQueryRoundTrip | qr-frontend/src/components/queuemanagement.jsx:26-29 | After the "?", splitting at "&" gives the parameters in order and one empty trailing piece. |
| ScannerStatus.QueryVariantsDiffer | qr-frontend/src/components/queuemanagement.jsx:26-29 | The two builders differ: an empty filter is sent here but omitted by the monitor. With nothing set this URL ends in "?", the monitor's has none. |
| ScannerStatus.FetchScannerStatus | qr-frontend/src/components/queuemanagement.jsx:35-37 | A failed fetch, or a `null` answer, keeps the list. An array answer is used as is, and otherwise `results \|\| []`. |
| ScannerStatus.StatusListMatchesQueueList | qr-frontend/src/components/queuemanagement.jsx:35 | Whenever the queue screen can read an answer as a list, this page keeps the same list. |
| AdminTokens.FilteredTokens | qr-frontend/src/components/admin/adminqr.jsx:76-80 | A token is kept if and only if its id, category name or status contains the term, ignoring case. |
| AdminTokens.SearchKeepsOrder | qr-frontend/src/components/admin/adminqr.jsx:76 | The result is an order-preserving selection: it distributes over concatenation. |
| AdminTokens.SearchIdempotent | qr-frontend/src/components/admin/adminqr.jsx:76-80 | Searching the result again with the same term changes nothing. |
| AdminTokens.LongerSearchNarrows | qr-frontend/src/components/admin/adminqr.jsx:76-80 | A longer term keeps a subset of what any of its substrings keeps. |
| AdminTokens.EmptySearchKeepsFielded | qr-frontend/src/components/admin/adminqr.jsx:76-80 | The empty term keeps exactly the tokens with at least one of the three fields. |
| AdminTokens.Generate | qr-frontend/src/components/admin/adminqr.jsx:63-73 | Nothing is sent unless the category and status are both set. Otherwise the form itself is POSTed, as a body with exactly the members `category` and `status` in that order, and success resets it to `{category: "", status: "waiting"}`. |
| AdminTokens.GenerateBodyIsForm | qr-frontend/src/components/admin/adminqr.jsx:63-73 | The posted body is the form: its keys are exactly `category`, `status`, and they read back as the form that was sent. |
| AdminTokens.GenerateResetBlocks | qr-frontend/src/components/admin/adminqr.jsx:65-68 | After a successful generation, submitting again sends nothing until a category is chosen. |
| StaffManagement.Validate | qr-frontend/src/components/Staffs.jsx:66-73 | Each error key is present exactly when its rule fails. The password is required only when creating. Error keys are among the four fields. |
| StaffManagement.PasswordOnlyOnCreate | qr-frontend/src/components/Staffs.jsx:70 | An edit never asks for a password. A creation asks exactly when the field is empty. |
| StaffManagement.FilledFormPasses | qr-frontend/src/components/Staffs.jsx:66-73 | A fully filled form has no errors. |
| StaffManagement.Payload | qr-frontend/src/components/Staffs.jsx:82-83 | The payload has the form's keys without `categories`, plus `role` and `category_ids`, in order. |
| StaffManagement.PayloadIdentity | qr-frontend/src/components/Staffs.jsx:82-83 | The identity fields travel unchanged under their own keys. |
| StaffManagement.PayloadPermissions | qr-frontend/src/components/Staffs.jsx:82-83 | The four permission flags travel unchanged. |
| StaffManagement.PayloadRoleAndCategories | qr-frontend/src/components/Staffs.jsx:82-83 | The role is "staff", the categories go as `category_ids`, and there is no `categories` member. |
| StaffManagement.Submit | qr-frontend/src/components/Staffs.jsx:75-97 | Errors block the request. A truthy id sends PUT `users/<id>/`, otherwise POST `users/`, with the payload. A successful save resets the form. |
| StaffManagement.InvalidFormSendsNothing | qr-frontend/src/components/Staffs.jsx:77-79 | A missing username, email or category means no request. |
| StaffManagement.ZeroIdCreates | qr-frontend/src/components/Staffs.jsx:84-90 | An id of 0 is falsy, so saving it creates a new user by POST. |
| StaffManagement.EditCategories | qr-frontend/src/components/Staffs.jsx:106 | Absent categories give `[]`, and an array maps element by element. Anything else throws. |
| StaffManagement.EditCategoriesOfObjects | qr-frontend/src/components/Staffs.jsx:106 | Category objects, as the listing reads them (`cat.id`, `cat.name`), all become "[object Object]" in the edit form, so two different categories cannot be told apart. |
| StaffManagement.HandleEdit | qr-frontend/src/components/Staffs.jsx:99-115 | The form copies username, email, names and the four permission flags from the record. The password is blanked and the record's id is kept. It throws on a `null` record or on non-array categories. |
| StaffManagement.EditThenSave | qr-frontend/src/components/Staffs.jsx:75-115 | Editing a complete record with a truthy id and saving it unchanged PUTs to that id without validation errors. |
| StaffManagement.StaffOnly | qr-frontend/src/components/Staffs.jsx:39 | Only users whose role is "staff" are kept, and all of them are. It throws unless the answer is an array of non-null items. |
| StaffManagement.StaffOnlyKeepsOrder | qr-frontend/src/components/Staffs.jsx:39 | The filter keeps answer order: the staff of two concatenated answers are the first's followed by the second's. |
| StaffManagement.FetchStaffs | qr-frontend/src/components/Staffs.jsx:35-45 | A successful load shows exactly the staff users of the answer. A rejected request, or an answer the filter throws on, keeps the listing. |
| ApiClient.SetHeader | qr-frontend/src/services/api.js:20 | The header gets the value, and every other header is unchanged. |
| ApiClient.SetHeaderIdempotent | qr-frontend/src/services/api.js:20 | Setting the same header twice is setting it once. |
| ApiClient.Intercept | qr-frontend/src/services/api.js:8-24 | With a token and a non-public URL, `Authorization` is exactly "Bearer " + token. Otherwise the config is returned unchanged. The URL and other headers are never touched. |
| ApiClient.AuthorizationIff | qr-frontend/src/services/api.js:17-21 | The header is added if and only if there is a token and the URL is not public. |
| ApiClient.InterceptIdempotent | qr-frontend/src/services/api.js:8-24 | Running the interceptor twice is running it once. |
| ApiClient.PublicBySubstring | qr-frontend/src/services/api.js:12-17 | Any URL containing "users/categories/" is public, whatever surrounds it. |
| ApiClient.PrivateGetsToken | qr-frontend/src/services/api.js:19-20 | A URL without the public entry gets the bearer header whenever a token exists. |

## Left out

- HTTP, React state and effects, toasts, routing and styling: each request is the
  `Http.Request` value, and the backend's answer is a parameter.
- `JSON.parse` and the WHATWG URL parser are foreign code, passed in as
  parameters.
- Numbers are integers: NaN, `-0`, fractions and `Number` formatting of
  non-integers are not modelled.
- `Object.keys` on objects with integer-like keys (which JavaScript lists first,
  in ascending order) is not modelled: object fields keep insertion order.
- `toLowerCase` folds ASCII letters only; Unicode case mapping is not modelled.
- Header names are compared case-sensitively; axios' case-insensitive header
  merging is not modelled.
- The session timer in `App.jsx` and the 30-second polling in
  `queuemanagement.jsx` are timer plumbing.
- The unawaited `handleManualCall` from the queue screen's scan tab is async
  ordering. `ActiveQueue.QrResult` records the request and the toast, not how
  they interleave.
- The queue screen's `fetchCategories`, the monitor's `fetchCategories` and
  `fetchLiveQueues`, and the admin list's `fetchTokens`/`fetchCategories` only
  store the answer.
- Locale date formatting, the PDF export and the Blob download in the daily
  report, and the share/clipboard helpers of the admin list depend on the host
  environment.
- `queuemanagement.jsx` sends its own `Authorization` header, which reads
  "Bearer null" without a stored token. The header is not modelled; only the URL
  and the answer handling are.
- The thin CRUD and display screens (category management, settings, bulk QR,
  token creation, verification, dashboards, manual entry, login, layout) are
  not part of this model.
- QueueMonitor.DisplayTokens: a queue's tokens are a list of records with
  string-or-absent fields. Three throws of the page are not modelled:
  - a `null` entry in `q.tokens` (read by `t.status` at `queuemonitor.jsx:83`);
  - a truthy `q.tokens` that is not an array (whose `.filter` at
    `queuemonitor.jsx:83` throws);
  - a `token_id` that is present but not a string (whose `toLowerCase` at
    `queuemonitor.jsx:94` throws).
- QueueMonitor.FilteredLiveQueues: queues are records with a typed category.
  Two throws of the page are not modelled:
  - a `null` entry in the queue list (whose `q.tokens` at `queuemonitor.jsx:92`
    throws);
  - a `q.category.name` that is present but not a string (whose `toLowerCase` at
    `queuemonitor.jsx:95` throws).
- AdminTokens.FilteredTokens: the same typed-token restriction. A `null` entry
  in `tokens`, or a present non-string `token_id`, `category_name` or `status`,
  would throw at `adminqr.jsx:77-79`; neither is modelled. Nor is an answer
  that `fetchTokens` stores as it arrives (`adminqr.jsx:20`) but is not an
  array, such as `null` or a `{results}` page, whose `tokens.filter` at
  `adminqr.jsx:76` throws while rendering; the search takes a list of tokens.
- LenientScan.ClassifyNoise: a scanner error's `message` and `name` are taken to
  be strings when present. A truthy non-string `message` would make
  `errorObj?.message?.includes` at `ScanQRCode.jsx:66` throw; that is not
  modelled.
- StaffManagement.StaffOnly: a non-array answer is modelled as a thrown error (as
  `filter` on a non-array would be); array-like objects are not distinguished.

=== FILE: active_queue.dfy ===
/** The staff queue screen (`queue-manage/activequeue.jsx`): loading the active
    list and the token being attended, calling the next token, the manual call
    with its guard, the "MAN"-prefixed manual entry form, and the QR scan tab. */
module ActiveQueue {
  import opened Base
  import opened Js
  import opened Http
  import opened Reader
  import Text

  /** The list shown in the "Active Queue" tab and the token being attended. */
  datatype QueueState = QueueState(tokens: seq<Value>, current: Value)

  /** The two manual-entry inputs. */
  datatype ManualForm = ManualForm(tokenId: string, categoryId: string)

  /** The toast a handler raises; error texts come from the backend and may be any value. */
  datatype Notice = Success | Info(message: string) | Failure(reason: Value)

  const ManualCallPath: string := "tokens/manual_call/"
  const NoWaitingMsg: string := "No waiting tokens available."
  const CallNextFailedMsg: string := "Failed to call next token."
  const ManualFailedMsg: string := "Failed to manually call token."
  const ManualPrefix: string := "MAN"
  const PrefixMsg: string := "Token ID must start with 'MAN'."

  /** `t.status === "called"`, for an item whose field access does not throw. */
  predicate IsCalled(t: Value)
  {
    !Nullish(t) && Prop(t, "status") == Str("called")
  }

  /** The active list of a response: the normalised listing, which must be an array
      because `find` is called on it next; a non-array `results` makes that call throw. */
  function ActiveList(data: Value): (r: Result<seq<Value>, Thrown>)
    ensures data.Arr? ==> r == Ok(data.items)
    ensures !data.Arr? && !Nullish(data) && !Truthy(Prop(data, "results")) ==> r == Ok([])
    ensures !data.Arr? && !Nullish(data) && Prop(data, "results").Arr? ==> r == Ok(Prop(data, "results").items)
    ensures r.Err? <==> Nullish(data) || (!data.Arr? && Truthy(Prop(data, "results")) && !Prop(data, "results").Arr?)
  {
    match ListOrResults(data)
    case Err(e) => Err(e)
    case Ok(list) => if list.Arr? then Ok(list.items) else Err(TypeError)
  }

  /** `items.find(t => t.status === "called") || null`: the first called item, `null`
      when there is none; reaching a `null` item first throws. */
  function FirstCalled(items: seq<Value>): (r: Result<Value, Thrown>)
  {
    if |items| == 0 then Ok(Null)
    else if Nullish(items[0]) then Err(TypeError)
    else if IsCalled(items[0]) then Ok(items[0])
    else FirstCalled(items[1..])
  }

  /** `FirstCalled` against the positional reading of `find`: it returns the item at
      the first called index when no `null` precedes it, `null` when no item is called
      and none is `null`, and throws exactly when a `null` item comes first. */
  lemma {:induction false} FirstCalledSpec(items: seq<Value>)
    ensures forall i :: 0 <= i < |items| && IsCalled(items[i])
              && (forall j :: 0 <= j < i ==> !Nullish(items[j]) && !IsCalled(items[j]))
              ==> FirstCalled(items) == Ok(items[i])
    ensures (forall j :: 0 <= j < |items| ==> !Nullish(items[j]) && !IsCalled(items[j]))
              ==> FirstCalled(items) == Ok(Null)
    ensures FirstCalled(items).Err? <==>
              exists i :: 0 <= i < |items| && Nullish(items[i])
                && (forall j :: 0 <= j < i ==> !IsCalled(items[j]))
  {
    if |items| > 0 {
      var rest := items[1..];
      FirstCalledSpec(rest);
      forall i | 0 <= i < |items| && IsCalled(items[i])
                 && (forall j :: 0 <= j < i ==> !Nullish(items[j]) && !IsCalled(items[j]))
        ensures FirstCalled(items) == Ok(items[i])
      {
        if i > 0 {
          assert rest[i - 1] == items[i];
          forall j | 0 <= j < i - 1 ensures !Nullish(rest[j]) && !IsCalled(rest[j]) {
            assert rest[j] == items[j + 1];
          }
        }
      }
      if forall j :: 0 <= j < |items| ==> !Nullish(items[j]) && !IsCalled(items[j]) {
        forall j | 0 <= j < |rest| ensures !Nullish(rest[j]) && !IsCalled(rest[j]) {
          assert rest[j] == items[j + 1];
        }
      }
      if FirstCalled(items).Err? {
        if !Nullish(items[0]) {
          var k :| 0 <= k < |rest| && Nullish(rest[k]) && (forall j :: 0 <= j < k ==> !IsCalled(rest[j]));
          assert items[k + 1] == rest[k];
          forall j | 0 <= j < k + 1 ensures !IsCalled(items[j]) {
            if j > 0 { assert items[j] == rest[j - 1]; }
          }
        }
      }
      if exists i :: 0 <= i < |items| && Nullish(items[i]) && (forall j :: 0 <= j < i ==> !IsCalled(items[j])) {
        var i :| 0 <= i < |items| && Nullish(items[i]) && (forall j :: 0 <= j < i ==> !IsCalled(items[j]));
        if !Nullish(items[0]) {
          assert i > 0;
          assert !IsCalled(items[0]);
          assert rest[i - 1] == items[i];
          forall j | 0 <= j < i - 1 ensures !IsCalled(rest[j]) {
            assert rest[j] == items[j + 1];
          }
        }
      }
    }
  }

  /** `fetchQueue` given the backend's answer (`None`: the request was rejected). On
      any failure the state is kept and the failure toast raised (the `bool`). */
  function FetchQueue(s: QueueState, response: Option<Value>): (r: (QueueState, bool))
    ensures r.1 ==> r.0 == s
    ensures r.1 <==> response.None? || ActiveList(response.value).Err?
                     || FirstCalled(ActiveList(response.value).value).Err?
    ensures !r.1 ==> ActiveList(response.value) == Ok(r.0.tokens) && FirstCalled(r.0.tokens) == Ok(r.0.current)
    ensures !r.1 ==> r.0.current == Null || (r.0.current in r.0.tokens && IsCalled(r.0.current))
  {
    match response
    case None => (s, true)
    case Some(data) =>
      match ActiveList(data)
      case Err(_) => (s, true)
      case Ok(items) =>
        match FirstCalled(items)
        case Err(_) => (s, true)
        case Ok(called) =>
          FirstCalledSpecIn(items);
          (QueueState(items, called), false)
  }

  lemma FirstCalledSpecIn(items: seq<Value>)
    ensures FirstCalled(items).Ok? ==>
      FirstCalled(items).value == Null || (FirstCalled(items).value in items && IsCalled(FirstCalled(items).value))
  {
    if |items| > 0 && !Nullish(items[0]) && !IsCalled(items[0]) {
      FirstCalledSpecIn(items[1..]);
    }
  }

  /** Any answer whose list can be read, an array or a `{results: [...]}` page:
      the load fails exactly when a `null` item comes before every called one;
      otherwise the list is shown as read and its first called item, or nobody,
      is attended. */
  lemma FetchLoadedList(s: QueueState, data: Value)
    requires ActiveList(data).Ok?
    ensures var items := ActiveList(data).value; var r := FetchQueue(s, Some(data));
      && (r.1 <==> exists i :: 0 <= i < |items| && Nullish(items[i]) && (forall j :: 0 <= j < i ==> !IsCalled(items[j])))
      && (forall i :: 0 <= i < |items| && IsCalled(items[i])
            && (forall j :: 0 <= j < i ==> !Nullish(items[j]) && !IsCalled(items[j]))
            ==> r == (QueueState(items, items[i]), false))
      && ((forall j :: 0 <= j < |items| ==> !Nullish(items[j]) && !IsCalled(items[j]))
            ==> r == (QueueState(items, Null), false))
  {
    FirstCalledSpec(ActiveList(data).value);
  }

  /** A paginated answer `{results: items}` is read like the bare array `items`. */
  lemma PaginatedLikeArray(s: QueueState, items: seq<Value>)
    ensures FetchQueue(s, Some(Obj([("results", Arr(items))]))) == FetchQueue(s, Some(Arr(items)))
  {
    assert Prop(Obj([("results", Arr(items))]), "results") == Arr(items);
  }

  /** A successful load over an array response shows the array as is and attends
      its first called token, or nobody. */
  lemma FetchArrayResponse(s: QueueState, items: seq<Value>)
    requires forall j :: 0 <= j < |items| ==> !Nullish(items[j])
    ensures var r := FetchQueue(s, Some(Arr(items)));
      && !r.1 && r.0.tokens == items
      && (forall i :: 0 <= i < |items| && IsCalled(items[i]) && (forall j :: 0 <= j < i ==> !IsCalled(items[j]))
            ==> r.0.current == items[i])
      && ((forall j :: 0 <= j < |items| ==> !IsCalled(items[j])) ==> r.0.current == Null)
  {
    FirstCalledSpec(items);
  }

  /** `d?.first || d?.second || fallback`: the backend's explanation of a failure. */
  function ErrorText(d: Value, first: string, second: string, fallback: string): Value
  {
    Or(Or(OptProp(d, first), OptProp(d, second)), Str(fallback))
  }

  /** The `current` record `callNext` builds from a response naming a token. */
  function Attending(data: Value): Value
    requires !Nullish(data)
  {
    Obj([("token_id", Prop(data, "token_id")),
         ("category", Or(Prop(data, "category"), Str(""))),
         ("category_name", Or(Prop(data, "category_name"), Str(""))),
         ("status", Prop(data, "status"))])
  }

  /** `callNext` given the backend's answer: `Ok(data)` on success, `Err(d)` with
      `d = err.response?.data` on failure. A follow-up `fetchQueue` runs afterwards
      in both cases; it is modelled by `FetchQueue`. */
  function CallNext(current: Value, answer: Result<Value, Value>): (r: (Value, Notice))
    ensures answer.Ok? && Truthy(answer.value) && Truthy(Prop(answer.value, "token_id")) ==>
      var data := answer.value;
      && r.0.Obj? && Keys(r.0.fields) == ["token_id", "category", "category_name", "status"]
      && r.0.fields[0].1 == Prop(data, "token_id") && r.0.fields[3].1 == Prop(data, "status")
      && (Truthy(Prop(data, "category")) ==> r.0.fields[1].1 == Prop(data, "category"))
      && (!Truthy(Prop(data, "category")) ==> r.0.fields[1].1 == Str(""))
      && (Truthy(Prop(data, "category_name")) ==> r.0.fields[2].1 == Prop(data, "category_name"))
      && (!Truthy(Prop(data, "category_name")) ==> r.0.fields[2].1 == Str(""))
      && r.1 == Success
    ensures answer.Ok? && !(Truthy(answer.value) && Truthy(Prop(answer.value, "token_id"))) ==>
      r == (Null, Info(NoWaitingMsg))
    ensures answer.Err? ==> r.0 == current && r.1.Failure?
  {
    match answer
    case Ok(data) =>
      if Truthy(data) && Truthy(Prop(data, "token_id")) then (Attending(data), Success)
      else (Null, Info(NoWaitingMsg))
    case Err(d) =>
      (current, Failure(ErrorText(d, "error", "detail", CallNextFailedMsg)))
  }

  /** Reading the attended record back, as the page does to show it, gives the
      response's token id and status, and its category and name or "". */
  lemma AttendingReadsBack(current: Value, data: Value)
    requires Truthy(data) && Truthy(Prop(data, "token_id"))
    ensures var r := CallNext(current, Ok(data)).0;
      && !Nullish(r)
      && Prop(r, "token_id") == Prop(data, "token_id")
      && Prop(r, "status") == Prop(data, "status")
      && Prop(r, "category") == Or(Prop(data, "category"), Str(""))
      && Prop(r, "category_name") == Or(Prop(data, "category_name"), Str(""))
  {
    var fs := CallNext(current, Ok(data)).0.fields;
    assert fs[0].0 == "token_id" && fs[1].0 == "category" && fs[2].0 == "category_name" && fs[3].0 == "status";
    assert fs[1].0[1] == 'a' && fs[2].0[8] == '_' && |fs[1].0| == 8;
    LookupAt(fs, 0);
    LookupAt(fs, 1);
    LookupAt(fs, 2);
    LookupAt(fs, 3);
  }

  /** `handleManualCall(tokenId, categoryId)` given the backend's answer (`Ok(data)`
      on success, `Err(_)` on failure): nothing is sent unless both are truthy. The
      success toast reads `res.data.token_id`, so a success with a `null` or
      `undefined` body throws into the catch; only a success with a body clears both
      inputs, anything else keeps them. */
  function ManualCall(form: ManualForm, tokenId: Value, categoryId: Value, answer: Result<Value, Value>)
    : (r: (ManualForm, Option<Request>))
    ensures r.1.Some? <==> Truthy(tokenId) && Truthy(categoryId)
    ensures r.1.Some? ==> r.1.value == Request(POST, ManualCallPath, [("token_id", tokenId), ("category_id", categoryId)])
    ensures r.1.Some? && answer.Ok? && !Nullish(answer.value) ==> r.0 == ManualForm("", "")
    ensures r.1.None? || answer.Err? || Nullish(answer.value) ==> r.0 == form
  {
    if !Truthy(tokenId) || !Truthy(categoryId) then (form, None)
    else
      var req := Request(POST, ManualCallPath, [("token_id", tokenId), ("category_id", categoryId)]);
      match answer
      case Ok(data) => (if Nullish(data) then form else ManualForm("", ""), Some(req))
      case Err(_) => (form, Some(req))
  }

  /** After a successful manual call the inputs are empty, so calling again with the
      form's own inputs sends nothing until both are filled in anew. This is the
      call with `handleManualCall`'s default arguments; the page's only call site,
      the scan tab, passes both arguments explicitly, so this describes the
      function's contract rather than a path the page takes today. */
  lemma ManualCallResetBlocks(form: ManualForm, tokenId: Value, categoryId: Value, data: Value,
                              again: Result<Value, Value>)
    requires Truthy(tokenId) && Truthy(categoryId) && !Nullish(data)
    ensures var f := ManualCall(form, tokenId, categoryId, Ok(data)).0;
      ManualCall(f, Str(f.tokenId), Str(f.categoryId), again).1 == None
  {
  }

  /** The manual-entry form, given the backend's answer (`Ok` on success, `Err(d)`
      with `d = err.response?.data` on failure). An id not starting with "MAN" is
      refused before any request; an accepted id is sent alone, and a success clears
      only that input. The success toast falls back to `res.data.token_id`, so a
      success with a `null` or `undefined` body throws into the catch and is
      reported like a failure, with the form kept. */
  function ManualEntry(form: ManualForm, answer: Result<Value, Value>): (r: (ManualForm, Option<Request>, Notice))
    ensures r.1.None? <==> !Text.StartsWith(form.tokenId, ManualPrefix)
    ensures r.1.None? ==> r.0 == form && r.2 == Failure(Str(PrefixMsg))
    ensures r.1.Some? ==> r.1.value == Request(POST, ManualCallPath, [("token_id", Str(form.tokenId))])
    ensures r.1.Some? && answer.Ok? && !Nullish(answer.value) ==> r.0 == form.(tokenId := "") && r.2 == Success
    ensures r.1.Some? && answer.Ok? && Nullish(answer.value) ==> r.0 == form && r.2 == Failure(Str(ManualFailedMsg))
    ensures answer.Err? ==> r.0 == form && r.2.Failure?
  {
    if !Text.StartsWith(form.tokenId, ManualPrefix) then (form, None, Failure(Str(PrefixMsg)))
    else
      var req := Request(POST, ManualCallPath, [("token_id", Str(form.tokenId))]);
      match answer
      case Ok(d) =>
        if Nullish(d) then (form, Some(req), Failure(Str(ManualFailedMsg)))
        else (form.(tokenId := ""), Some(req), Success)
      case Err(d) => (form, Some(req), Failure(ErrorText(d, "detail", "error", ManualFailedMsg)))
  }

  /** After a successful manual entry the input is empty, which the "MAN" check
      refuses: submitting again sends nothing. After a failure the same request
      can be sent again. */
  lemma ManualEntryResetBlocks(form: ManualForm, answer: Result<Value, Value>, again: Result<Value, Value>)
    requires Text.StartsWith(form.tokenId, ManualPrefix)
    ensures var r := ManualEntry(form, answer);
      && (answer.Ok? && !Nullish(answer.value) ==> ManualEntry(r.0, again).1 == None)
      && (answer.Err? || Nullish(answer.value) ==> ManualEntry(r.0, again).1 == r.1)
  {
  }

  /** The two failure toasts read the backend's explanation in opposite orders:
      `callNext` prefers `error` over `detail`, the manual-entry form `detail` over
      `error`; both fall back to a fixed message when neither is truthy. */
  lemma FailureTextPrecedence(current: Value, form: ManualForm, d: Value)
    requires Text.StartsWith(form.tokenId, ManualPrefix)
    requires !Nullish(d)
    ensures Truthy(Prop(d, "error")) ==> CallNext(current, Err(d)).1 == Failure(Prop(d, "error"))
    ensures Truthy(Prop(d, "detail")) ==> ManualEntry(form, Err(d)).2 == Failure(Prop(d, "detail"))
    ensures !Truthy(Prop(d, "error")) && !Truthy(Prop(d, "detail")) ==>
      && CallNext(current, Err(d)).1 == Failure(Str(CallNextFailedMsg))
      && ManualEntry(form, Err(d)).2 == Failure(Str(ManualFailedMsg))
  {
  }

  /** The scan tab's reader callback. A missing or empty text is read as "{}". A
      payload with truthy `token_id` and `category_id` goes to `handleManualCall`
      and switches to the "currently" tab; a payload lacking either is an invalid
      format; unparseable text, or JSON `null`, is reported as not JSON. */
  function QrResult(form: ManualForm, tab: string, result: Option<ScanResult>,
                    parse: JsonParser, answer: Result<Value, Value>)
    : (r: (ManualForm, string, Option<Request>, ScanReport<Value>))
    ensures result.None? ==> r == (form, tab, None, Silent)
    ensures r.2.Some? ==> r.3.Called? && r.1 == "currently"
    ensures r.3.Called? ==> r.2.Some? && |r.2.value.body| == 2 && r.2.value.body[0] == ("token_id", r.3.tokenId)
    ensures !r.3.Called? ==> r.0 == form && r.1 == tab && r.2 == None
  {
    match result
    case None => (form, tab, None, Silent)
    case Some(res) =>
      var text := if res.text.Some? && res.text.value != "" then res.text.value else "{}";
      match parse(text)
      case None => (form, tab, None, NotJson)
      case Some(data) =>
        match Get(data, "token_id")
        case Threw => (form, tab, None, NotJson)
        case Got(tok) =>
          var cat := Prop(data, "category_id");
          if Truthy(tok) && Truthy(cat) then
            var call := ManualCall(form, tok, cat, answer);
            (call.0, "currently", call.1, Called(tok))
          else (form, tab, None, InvalidFormat)
  }

  /** A result without text is parsed as the empty object, which carries neither
      field, so it is reported as an invalid format and nothing is sent. */
  lemma EmptyTextIsEmptyObject(form: ManualForm, tab: string, parse: JsonParser, answer: Result<Value, Value>)
    requires parse("{}") == Some(Obj([]))
    ensures QrResult(form, tab, Some(ScanResult(None)), parse, answer) == (form, tab, None, InvalidFormat)
    ensures QrResult(form, tab, Some(ScanResult(Some(""))), parse, answer) == (form, tab, None, InvalidFormat)
  {
  }
}

=== FILE: admin_tokens.dfy ===
/** The admin token list (`admin/adminqr.jsx`): the search box over the tokens and
    the guard and reset of the token generation form. */
module AdminTokens {
  import opened Base
  import opened Js
  import opened Http
  import opened Lists
  import opened Search
  import Text

  /** A token is listed when its id, category name or status contains the search
      term, ignoring case; absent fields never match. */
  predicate Matches(search: string, t: Token)
  {
    FieldMatches(t.tokenId, search) || FieldMatches(t.categoryName, search) || FieldMatches(t.status, search)
  }

  /** `filteredTokens`: the matching tokens, in list order. */
  function FilteredTokens(tokens: seq<Token>, search: string): (r: seq<Token>)
    ensures |r| <= |tokens|
    ensures forall i :: 0 <= i < |r| ==> r[i] in tokens && Matches(search, r[i])
    ensures forall i :: 0 <= i < |tokens| && Matches(search, tokens[i]) ==> tokens[i] in r
  {
    Filter(tokens, t => Matches(search, t))
  }

  /** The result is an order-preserving selection: searching a concatenation
      searches each part and keeps them in order. */
  lemma SearchKeepsOrder(a: seq<Token>, b: seq<Token>, search: string)
    ensures FilteredTokens(a + b, search) == FilteredTokens(a, search) + FilteredTokens(b, search)
  {
    FilterAppend(a, b, t => Matches(search, t));
  }

  /** Searching the result again with the same term changes nothing. */
  lemma SearchIdempotent(tokens: seq<Token>, search: string)
    ensures FilteredTokens(FilteredTokens(tokens, search), search) == FilteredTokens(tokens, search)
  {
    FilterIdempotent(tokens, t => Matches(search, t));
  }

  /** Monotone in the term: if `shorter` is a substring of `longer`, the tokens
      found for `longer` are exactly the tokens found for `shorter` that also
      match `longer`, so every token `longer` finds, `shorter` finds too. */
  lemma LongerSearchNarrows(tokens: seq<Token>, shorter: string, longer: string)
    requires Text.Includes(longer, shorter)
    ensures FilteredTokens(FilteredTokens(tokens, shorter), longer) == FilteredTokens(tokens, longer)
    ensures forall i :: 0 <= i < |FilteredTokens(tokens, longer)| ==>
              FilteredTokens(tokens, longer)[i] in FilteredTokens(tokens, shorter)
  {
    forall t | Matches(longer, t) ensures Matches(shorter, t) {
      if FieldMatches(t.tokenId, longer) {
        FieldMatchesNarrower(t.tokenId, shorter, longer);
      } else if FieldMatches(t.categoryName, longer) {
        FieldMatchesNarrower(t.categoryName, shorter, longer);
      } else {
        FieldMatchesNarrower(t.status, shorter, longer);
      }
    }
    FilterNarrower(tokens, t => Matches(shorter, t), t => Matches(longer, t));
  }

  predicate HasAnyField(t: Token)
  {
    t.tokenId.Some? || t.categoryName.Some? || t.status.Some?
  }

  /** The empty search keeps exactly the tokens with at least one of the three
      fields present. */
  lemma EmptySearchKeepsFielded(tokens: seq<Token>)
    ensures FilteredTokens(tokens, "") == Filter(tokens, HasAnyField)
  {
    forall i | 0 <= i < |tokens| ensures Matches("", tokens[i]) == HasAnyField(tokens[i]) {
      FieldMatchesEmpty(tokens[i].tokenId);
      FieldMatchesEmpty(tokens[i].categoryName);
      FieldMatchesEmpty(tokens[i].status);
    }
    FilterCongruent(tokens, t => Matches("", t), HasAnyField);
  }

  // ---------------------------------------------------------------------------
  // `handleGenerate`.

  /** The generation form: the chosen category id and the initial status. */
  datatype GenerateForm = GenerateForm(category: string, status: string)

  const InitialForm: GenerateForm := GenerateForm("", "waiting")
  const GeneratePath: string := "/tokens/admin_generate/"

  /** `handleGenerate`: nothing is sent unless both fields are set; otherwise the
      form itself is posted, and a successful post resets it to the initial form
      while a failed one leaves it as it was. */
  function Generate(form: GenerateForm, backendOk: bool): (r: (GenerateForm, Option<Request>))
    ensures r.1.None? <==> form.category == "" || form.status == ""
    ensures r.1.Some? ==> r.1.value.verb == POST && r.1.value.path == GeneratePath
    ensures r.1.Some? ==> Lookup(r.1.value.body, "category") == Str(form.category)
                          && Lookup(r.1.value.body, "status") == Str(form.status)
    ensures r.1.Some? ==> Keys(r.1.value.body) == ["category", "status"]
    ensures r.1.Some? && backendOk ==> r.0 == InitialForm
    ensures r.1.None? || !backendOk ==> r.0 == form
  {
    if form.category == "" || form.status == "" then (form, None)
    else
      var req := Request(POST, GeneratePath, [("category", Str(form.category)), ("status", Str(form.status))]);
      (if backendOk then InitialForm else form, Some(req))
  }

  /** Reads a posted body back as a generation form, when it holds string
      `category` and `status` members. */
  function BodyForm(body: Fields): Option<GenerateForm>
  {
    var c := Lookup(body, "category");
    var st := Lookup(body, "status");
    if c.Str? && st.Str? then Some(GenerateForm(c.s, st.s)) else None
  }

  /** The posted body is the form itself: exactly its two members, which read
      back as the form that was sent. */
  lemma GenerateBodyIsForm(form: GenerateForm, backendOk: bool)
    requires Generate(form, backendOk).1.Some?
    ensures var body := Generate(form, backendOk).1.value.body;
      && Keys(body) == ["category", "status"]
      && BodyForm(body) == Some(form)
  {
  }

  /** After a successful generation the form needs a new category before the
      next request can be sent. */
  lemma GenerateResetBlocks(form: GenerateForm)
    requires Generate(form, true).1.Some?
    ensures Generate(Generate(form, true).0, true).1 == None
  {
  }
}

=== FILE: api_client.dfy ===
/** The shared HTTP client (`services/api.js`): its request interceptor adds the
    bearer token to every request except those to a public endpoint. */
module ApiClient {
  import opened Base
  import Text

  /** A request's headers, in insertion order, each name at most once. */
  type Headers = seq<(string, string)>

  /** The part of a request configuration the interceptor reads and writes: the
      URL relative to the base and the headers. */
  datatype Config = Config(url: string, headers: Headers)

  const AuthHeader: string := "Authorization"

  /** The endpoints that must be reached without credentials. */
  const PublicEndpoints: seq<string> := ["users/categories/"]

  /** `publicEndpoints.some(ep => config.url.includes(ep))`: a substring match, so
      any URL containing an entry counts as public. */
  predicate IsPublic(url: string)
  {
    exists i :: 0 <= i < |PublicEndpoints| && Text.Includes(url, PublicEndpoints[i])
  }

  /** The value under `name`, if any (the first entry with that name). */
  function HeaderGet(hs: Headers, name: string): Option<string>
  {
    if |hs| == 0 then None
    else if hs[0].0 == name then Some(hs[0].1)
    else HeaderGet(hs[1..], name)
  }

  /** `headers[name] = value`: an existing entry is overwritten in place, a new
      one goes at the end. */
  function SetHeader(hs: Headers, name: string, value: string): (r: Headers)
    ensures HeaderGet(r, name) == Some(value)
    ensures forall other :: other != name ==> HeaderGet(r, other) == HeaderGet(hs, other)
    ensures |r| == if HeaderGet(hs, name).Some? then |hs| else |hs| + 1
  {
    if |hs| == 0 then [(name, value)]
    else if hs[0].0 == name then [(name, value)] + hs[1..]
    else [hs[0]] + SetHeader(hs[1..], name, value)
  }

  /** Setting the same header twice is setting it once. */
  lemma {:induction false} SetHeaderIdempotent(hs: Headers, name: string, value: string)
    ensures SetHeader(SetHeader(hs, name, value), name, value) == SetHeader(hs, name, value)
    decreases |hs|
  {
    if |hs| > 0 && hs[0].0 != name {
      SetHeaderIdempotent(hs[1..], name, value);
      var r := SetHeader(hs, name, value);
      assert r[0] == hs[0] && r[1..] == SetHeader(hs[1..], name, value);
    }
  }

  /** The token is used when `localStorage` holds one and it is not empty. */
  predicate HasToken(token: Option<string>)
  {
    token.Some? && token.value != ""
  }

  /** The interceptor: with a token and a non-public URL, `Authorization` becomes
      exactly "Bearer " followed by the token; the URL and every other header are
      left alone. Otherwise the configuration passes through untouched: a public
      request keeps any `Authorization` it already had. */
  function Intercept(config: Config, token: Option<string>): (r: Config)
    ensures r.url == config.url
    ensures HasToken(token) && !IsPublic(config.url) ==> HeaderGet(r.headers, AuthHeader) == Some("Bearer " + token.value)
    ensures !HasToken(token) || IsPublic(config.url) ==> r == config
    ensures forall other :: other != AuthHeader ==> HeaderGet(r.headers, other) == HeaderGet(config.headers, other)
  {
    if HasToken(token) && !IsPublic(config.url) then
      Config(config.url, SetHeader(config.headers, AuthHeader, "Bearer " + token.value))
    else config
  }

  /** The header is set if and only if there is a token and the URL is not public
      (short of a header the caller had already set to the same text). */
  lemma AuthorizationIff(config: Config, token: Option<string>)
    requires HeaderGet(config.headers, AuthHeader).None?
    ensures HeaderGet(Intercept(config, token).headers, AuthHeader).Some? <==> HasToken(token) && !IsPublic(config.url)
  {
  }

  /** Running the interceptor twice is running it once. */
  lemma InterceptIdempotent(config: Config, token: Option<string>)
    ensures Intercept(Intercept(config, token), token) == Intercept(config, token)
  {
    if HasToken(token) && !IsPublic(config.url) {
      SetHeaderIdempotent(config.headers, AuthHeader, "Bearer " + token.value);
    }
  }

  /** Matching is by substring: a leading slash, a trailing id or a query string
      does not stop a URL from counting as public. */
  lemma PublicBySubstring(prefix: string, suffix: string)
    ensures IsPublic(prefix + "users/categories/" + suffix)
  {
    var url := prefix + "users/categories/" + suffix;
    var ep := PublicEndpoints[0];
    assert url[|prefix|..|prefix| + |ep|] == ep;
    Text.IncludesIff(url, ep);
    assert Text.OccursAt(url, ep, |prefix|);
  }

  /** A URL that does not contain the public entry gets the header when there is a
      token, e.g. `users/` for the staff listing. */
  lemma PrivateGetsToken(config: Config, t: string)
    requires t != ""
    requires !Text.Includes(config.url, "users/categories/")
    ensures HeaderGet(Intercept(config, Some(t)).headers, AuthHeader) == Some("Bearer " + t)
  {
  }
}

=== FILE: base.dfy ===
/** Failure-compatible wrappers shared by every module of the console model. */
module Base {

  /** A value that may be absent: JavaScript's `null`/`undefined` results of a lookup,
      or a foreign parser that rejects its input. */
  datatype Option<+T> = None | Some(value: T) {

    /** The wrapped value, or `default` when absent. */
    function GetOr(default: T): (r: T)
      ensures Some? ==> r == value
      ensures None? ==> r == default
    {
      match this
      case Some(v) => v
      case None => default
    }
  }

  /** The outcome of a step that may throw: `Err` stands for a JavaScript exception
      (for instance a `TypeError` from reading a property of `null`). */
  datatype Result<+T, +E> = Ok(value: T) | Err(error: E)

  /** The only exception the modelled code can raise on its own: a `TypeError`. */
  datatype Thrown = TypeError
}

=== FILE: csv_report.dfy ===
/** The daily report's CSV export (`admin/DailyScanReport.jsx`): `jsonToCSV`, which
    takes its columns from the first row's keys and writes every value as is (no
    quoting, no escaping), and the row shaping of `handleExportCSV`. */
module CsvReport {
  import opened Base
  import opened Js
  import Text

  /** One record to export: an object literal, keys in insertion order. */
  type Row = Fields

  /** The text of one field: `null`/`undefined` become empty, every other value
      its `String` text, verbatim. */
  function Cell(v: Value): (c: string)
    ensures Nullish(v) ==> c == ""
    ensures v.Str? ==> c == v.s
  {
    if Nullish(v) then "" else ToStr(v)
  }

  /** The columns: the keys of the first row, in order. */
  function Header(items: seq<Row>): seq<string>
    requires |items| > 0
  {
    Keys(items[0])
  }

  /** The fields of one data row: one per header key, in header order. */
  function Cells(header: seq<string>, row: Row): (cs: seq<string>)
    ensures |cs| == |header|
    ensures forall j :: 0 <= j < |header| ==> cs[j] == Cell(Lookup(row, header[j]))
  {
    seq(|header|, j requires 0 <= j < |header| => Cell(Lookup(row, header[j])))
  }

  /** One data line: the row's fields joined by commas. */
  function RowLine(header: seq<string>, row: Row): string
  {
    Text.Join(Cells(header, row), ",")
  }

  /** The data lines, one per row, in row order. */
  function DataLines(header: seq<string>, rows: seq<Row>): (ls: seq<string>)
    ensures |ls| == |rows|
  {
    seq(|rows|, i requires 0 <= i < |rows| => RowLine(header, rows[i]))
  }

  /** The lines of the file: the header line, then the data lines. */
  function Lines(items: seq<Row>): (ls: seq<string>)
    requires |items| > 0
    ensures |ls| == |items| + 1
    ensures ls[0] == Text.Join(Header(items), ",")
    ensures ls[1..] == DataLines(Header(items), items)
  {
    [Text.Join(Header(items), ",")] + DataLines(Header(items), items)
  }

  /** `jsonToCSV(items)`; `None` stands for `null`/`undefined`. */
  function JsonToCsv(items: Option<seq<Row>>): (csv: string)
    ensures items.None? || items == Some([]) ==> csv == ""
  {
    match items
    case None => ""
    case Some(xs) => if |xs| == 0 then "" else Text.Join(Lines(xs), "\n")
  }

  /** A character absent from every piece and from the separator is absent from the join. */
  lemma {:induction false} JoinAvoids(xs: seq<string>, sep: string, d: char)
    requires d !in sep
    requires forall k :: 0 <= k < |xs| ==> d !in xs[k]
    ensures d !in Text.Join(xs, sep)
    decreases |xs|
  {
    if |xs| > 1 {
      JoinAvoids(xs[1..], sep, d);
      assert xs[1] == xs[1..][0];
    }
  }

  /** Reading the file back: whenever no header key and no field contains a comma or
      a line break, splitting the text at line breaks yields the header line and one
      line per item in input order, splitting the header at commas yields the first
      item's keys, and splitting line `i + 1` yields item `i`'s value under each
      header key, in header order. */
  lemma CsvRoundTrip(items: seq<Row>)
    requires |items| > 0 && |Header(items)| > 0
    requires forall j :: 0 <= j < |Header(items)| ==> ',' !in Header(items)[j] && '\n' !in Header(items)[j]
    requires forall i, j :: 0 <= i < |items| && 0 <= j < |Header(items)| ==>
               ',' !in Cells(Header(items), items[i])[j] && '\n' !in Cells(Header(items), items[i])[j]
    ensures Text.Split(JsonToCsv(Some(items)), '\n') == Lines(items)
    ensures Text.Split(Lines(items)[0], ',') == Header(items)
    ensures forall i :: 0 <= i < |items| ==>
              Text.Split(Lines(items)[i + 1], ',') == Cells(Header(items), items[i])
    ensures forall i, j :: 0 <= i < |items| && 0 <= j < |Header(items)| ==>
              Text.Split(Lines(items)[i + 1], ',')[j] == Cell(Lookup(items[i], Header(items)[j]))
  {
    var h := Header(items);
    var ls := Lines(items);
    JoinAvoids(h, ",", '\n');
    Text.SplitJoin(h, ',');
    DataLinesRoundTrip(h, items);
    LinesAvoidNewline(items);
    Text.SplitJoin(ls, '\n');
  }

  /** Each data line splits back into its row's fields and holds no line break. */
  lemma DataLinesRoundTrip(h: seq<string>, items: seq<Row>)
    requires |h| > 0
    requires forall i, j :: 0 <= i < |items| && 0 <= j < |h| ==>
               ',' !in Cells(h, items[i])[j] && '\n' !in Cells(h, items[i])[j]
    ensures forall i :: 0 <= i < |items| ==>
              Text.Split(DataLines(h, items)[i], ',') == Cells(h, items[i])
              && '\n' !in DataLines(h, items)[i]
  {
    forall i | 0 <= i < |items|
      ensures Text.Split(DataLines(h, items)[i], ',') == Cells(h, items[i])
      ensures '\n' !in DataLines(h, items)[i]
    {
      var cs := Cells(h, items[i]);
      assert DataLines(h, items)[i] == Text.Join(cs, ",");
      Text.SplitJoin(cs, ',');
      JoinAvoids(cs, ",", '\n');
    }
  }

  lemma LinesAvoidNewline(items: seq<Row>)
    requires |items| > 0
    requires forall j :: 0 <= j < |Header(items)| ==> '\n' !in Header(items)[j]
    requires forall i :: 0 <= i < |items| ==> '\n' !in DataLines(Header(items), items)[i]
    ensures forall k :: 0 <= k < |Lines(items)| ==> '\n' !in Lines(items)[k]
  {
    var ls := Lines(items);
    JoinAvoids(Header(items), ",", '\n');
    forall k | 0 <= k < |ls| ensures '\n' !in ls[k] {
      if k > 0 {
        assert ls[k] == DataLines(Header(items), items)[k - 1];
      }
    }
  }

  /** No RFC 4180 quoting: a field holding a comma is written bare, so reading the
      line back yields more fields than the header has columns. */
  lemma NoQuoting()
    ensures JsonToCsv(Some([[("note", Str("a,b"))]])) == "note\na,b"
    ensures |Text.Split("a,b", ',')| == 2 > |Header([[("note", Str("a,b"))]])|
  {
    var items: seq<Row> := [[("note", Str("a,b"))]];
    assert Header(items) == ["note"];
    assert Cells(["note"], items[0]) == ["a,b"];
    assert Lines(items) == ["note", "a,b"];
  }

  /** Falsy values other than `null`/`undefined` are written, not blanked. */
  lemma FalsyValuesVerbatim()
    ensures Cell(Num(0)) == "0" && Cell(Bool(false)) == "false" && Cell(Str("")) == ""
    ensures Cell(Null) == "" && Cell(Undefined) == ""
  {
  }

  /** Appending an entry under a new key leaves every earlier key's value alone. */
  lemma {:induction false} LookupAppend(row: Row, k: string, v: Value, x: string)
    requires x != k
    ensures Lookup(row + [(k, v)], x) == Lookup(row, x)
    decreases |row|
  {
    if |row| > 0 {
      assert (row + [(k, v)])[1..] == row[1..] + [(k, v)];
      LookupAppend(row[1..], k, v, x);
    }
  }

  /** Keys missing from the first row are dropped: a field under a key outside the
      header does not change the row's line. */
  lemma ExtraKeysDropped(header: seq<string>, row: Row, k: string, v: Value)
    requires k !in header
    ensures Cells(header, row + [(k, v)]) == Cells(header, row)
  {
    forall j | 0 <= j < |header| ensures Lookup(row + [(k, v)], header[j]) == Lookup(row, header[j]) {
      LookupAppend(row, k, v, header[j]);
    }
  }

  // ---------------------------------------------------------------------------
  // Row shaping in `handleExportCSV`.

  /** One staff summary as an export row; a `null` entry throws. Column `k` takes
      the summary's field `StaffFields[k]`. */
  function StaffRow(staff: Value): (r: Result<Row, Thrown>)
    ensures r.Err? <==> Nullish(staff)
    ensures r.Ok? ==> Keys(r.value) == StaffColumns
    ensures r.Ok? ==> forall k :: 0 <= k < |StaffFields| ==> r.value[k].1 == Prop(staff, StaffFields[k])
  {
    if Nullish(staff) then Err(TypeError)
    else Ok([("Staff", Prop(staff, "staff")),
             ("Waiting_Tokens", Prop(staff, "waiting_tokens")),
             ("Completed_Tokens", Prop(staff, "completed_tokens")),
             ("Success", Prop(staff, "success_verifications")),
             ("Failed", Prop(staff, "failed_verifications"))])
  }

  const StaffColumns: seq<string> := ["Staff", "Waiting_Tokens", "Completed_Tokens", "Success", "Failed"]
  /** The staff summary fields the columns are read from, column by column. */
  const StaffFields: seq<string> :=
    ["staff", "waiting_tokens", "completed_tokens", "success_verifications", "failed_verifications"]
  const CategoryColumns: seq<string> := ["Category", "Total_QR", "Staff_Assigned"]

  /** One category summary as an export row; `staff_assigned` must be an array,
      whose entries are joined with ", ". */
  function CategoryRow(cat: Value): (r: Result<Row, Thrown>)
    ensures r.Ok? <==> !Nullish(cat) && Prop(cat, "staff_assigned").Arr?
    ensures r.Ok? ==> Keys(r.value) == CategoryColumns
    ensures r.Ok? ==> r.value[0].1 == Prop(cat, "category") && r.value[1].1 == Prop(cat, "total_qr")
    ensures r.Ok? ==> r.value[2].1 == Str(ArrayJoin(Prop(cat, "staff_assigned"), ", "))
  {
    if Nullish(cat) then Err(TypeError)
    else
      var staffList := Prop(cat, "staff_assigned");
      if !staffList.Arr? then Err(TypeError)
      else Ok([("Category", Prop(cat, "category")),
               ("Total_QR", Prop(cat, "total_qr")),
               ("Staff_Assigned", Str(ArrayJoin(staffList, ", ")))])
  }

  /** `xs.map(f)` where `f` may throw: the first exception aborts the whole map. */
  function MapRows(xs: seq<Value>, f: Value -> Result<Row, Thrown>): (r: Result<seq<Row>, Thrown>)
    ensures r.Ok? ==> |r.value| == |xs| && forall i :: 0 <= i < |xs| ==> f(xs[i]) == Ok(r.value[i])
    ensures r.Err? ==> exists i :: 0 <= i < |xs| && f(xs[i]).Err?
  {
    if |xs| == 0 then Ok([])
    else match f(xs[0])
      case Err(e) => Err(e)
      case Ok(row) =>
        match MapRows(xs[1..], f)
        case Err(e) => Err(e)
        case Ok(rows) => Ok([row] + rows)
  }

  /** `report.key?.map(f) || []`: an absent section gives no rows; a section that is
      not an array cannot be mapped and throws. */
  function SectionRows(report: Value, key: string, f: Value -> Result<Row, Thrown>): (r: Result<seq<Row>, Thrown>)
    requires !Nullish(report)
    ensures Nullish(Prop(report, key)) ==> r == Ok([])
    ensures !Nullish(Prop(report, key)) && !Prop(report, key).Arr? ==> r.Err?
    ensures Prop(report, key).Arr? ==> r == MapRows(Prop(report, key).items, f)
  {
    var section := Prop(report, key);
    if Nullish(section) then Ok([])
    else if !section.Arr? then Err(TypeError)
    else MapRows(section.items, f)
  }

  /** The rows `handleExportCSV` exports: staff rows, then category rows. */
  function ExportRows(report: Value): Result<seq<Row>, Thrown>
    requires !Nullish(report)
  {
    match SectionRows(report, "staff_summary", StaffRow)
    case Err(e) => Err(e)
    case Ok(staff) =>
      match SectionRows(report, "categories", CategoryRow)
      case Err(e) => Err(e)
      case Ok(cats) => Ok(staff + cats)
  }

  /** `handleExportCSV`: a falsy report produces no file (`Ok(None)`), otherwise the
      CSV text of the shaped rows; an exception aborts the export. */
  function ExportCsv(report: Value): (r: Result<Option<string>, Thrown>)
    ensures !Truthy(report) ==> r == Ok(None)
    ensures Truthy(report) && r.Ok? ==> r.value.Some?
  {
    if !Truthy(report) then Ok(None)
    else match ExportRows(report)
      case Err(e) => Err(e)
      case Ok(rows) => Ok(Some(JsonToCsv(Some(rows))))
  }

  /** A category row has none of the staff columns, so under the staff header it is
      five empty fields. */
  lemma CategoryRowBlank(row: Row)
    requires Keys(row) == CategoryColumns
    ensures RowLine(StaffColumns, row) == ",,,,"
  {
    forall j | 0 <= j < 5 ensures Lookup(row, StaffColumns[j]) == Undefined {
      LookupPresent(row, StaffColumns[j]);
    }
    var cs := Cells(StaffColumns, row);
    assert cs == ["", "", "", "", ""];
    assert cs[1..][1..][1..][1..] == [""];
    assert cs[1..][1..][1..] == ["", ""];
    assert Text.Join(cs[1..][1..][1..], ",") == ",";
    assert cs[1..][1..] == ["", "", ""];
    assert Text.Join(cs[1..][1..], ",") == ",,";
    assert cs[1..] == ["", "", "", ""];
    assert Text.Join(cs[1..], ",") == ",,,";
  }

  /** No two staff columns share a name. */
  lemma StaffColumnsDistinct()
    ensures forall j, k :: 0 <= j < k < |StaffColumns| ==> StaffColumns[j] != StaffColumns[k]
  {
    assert StaffColumns[0][0] == 'S' && StaffColumns[0][1] == 't';
    assert StaffColumns[1][0] == 'W' && StaffColumns[2][0] == 'C' && StaffColumns[4][0] == 'F';
    assert StaffColumns[3][0] == 'S' && StaffColumns[3][1] == 'u';
  }

  /** Read back through the header, a staff row's fields are the summary's fields
      in column order: `Success` is `success_verifications`, `Failed` is
      `failed_verifications`, and so on. */
  lemma StaffCells(staff: Value)
    requires !Nullish(staff)
    ensures forall k :: 0 <= k < |StaffColumns| ==>
              Cells(StaffColumns, StaffRow(staff).value)[k] == Cell(Prop(staff, StaffFields[k]))
  {
    var row := StaffRow(staff).value;
    StaffColumnsDistinct();
    forall k | 0 <= k < |StaffColumns| ensures Lookup(row, StaffColumns[k]) == Prop(staff, StaffFields[k]) {
      assert Keys(row)[k] == row[k].0;
      LookupAt(row, k);
    }
  }

  /** Staff rows followed by category rows: the staff columns head the file, the
      staff rows keep their order, and each category row is blank. */
  lemma LayoutOfRows(staff: seq<Row>, cats: seq<Row>)
    requires |staff| > 0 && Keys(staff[0]) == StaffColumns
    requires forall k :: 0 <= k < |cats| ==> Keys(cats[k]) == CategoryColumns
    ensures Lines(staff + cats)
         == [Text.Join(StaffColumns, ",")]
            + DataLines(StaffColumns, staff) + seq(|cats|, k => ",,,,")
  {
    var rows := staff + cats;
    assert Header(rows) == StaffColumns;
    var ls := DataLines(StaffColumns, rows);
    forall i | |staff| <= i < |rows| ensures ls[i] == ",,,," {
      var k := i - |staff|;
      assert rows[i] == cats[k];
      CategoryRowBlank(cats[k]);
    }
    forall i | 0 <= i < |staff| ensures ls[i] == DataLines(StaffColumns, staff)[i] {
      assert rows[i] == staff[i];
    }
    assert DataLines(StaffColumns, rows) == DataLines(StaffColumns, staff) + seq(|cats|, k => ",,,,");
  }

  /** The export's layout: staff rows come first and fix the columns, so when there
      is at least one, the header is the five staff columns, the staff rows follow
      in order, and every category row is five empty fields. */
  lemma ExportLayout(report: Value)
    requires Truthy(report)
    requires ExportRows(report).Ok?
    requires SectionRows(report, "staff_summary", StaffRow).Ok?
    requires |SectionRows(report, "staff_summary", StaffRow).value| > 0
    ensures var staff := SectionRows(report, "staff_summary", StaffRow).value;
            var rows := ExportRows(report).value;
      && ExportCsv(report) == Ok(Some(Text.Join(Lines(rows), "\n")))
      && Lines(rows) == [Text.Join(StaffColumns, ",")]
                        + DataLines(StaffColumns, staff) + seq(|rows| - |staff|, k => ",,,,")
  {
    var staff := SectionRows(report, "staff_summary", StaffRow).value;
    var cats := SectionRows(report, "categories", CategoryRow).value;
    assert ExportRows(report).value == staff + cats;
    var section := Prop(report, "staff_summary");
    assert StaffRow(section.items[0]) == Ok(staff[0]);
    if |cats| > 0 {
      var catItems := Prop(report, "categories").items;
      forall k | 0 <= k < |cats| ensures Keys(cats[k]) == CategoryColumns {
        assert CategoryRow(catItems[k]) == Ok(cats[k]);
      }
    }
    LayoutOfRows(staff, cats);
  }

  /** A report without staff rows takes its columns from the category rows. */
  lemma CategoryOnlyHeader(report: Value)
    requires Truthy(report)
    requires ExportRows(report).Ok?
    requires SectionRows(report, "staff_summary", StaffRow) == Ok([])
    requires |ExportRows(report).value| > 0
    ensures Lines(ExportRows(report).value)[0] == "Category,Total_QR,Staff_Assigned"
  {
    var cats := SectionRows(report, "categories", CategoryRow).value;
    var rows := ExportRows(report).value;
    assert rows == cats;
    assert CategoryRow(Prop(report, "categories").items[0]) == Ok(cats[0]);
    assert Header(rows) == CategoryColumns;
    CategoryHeaderText();
  }

  /** The category columns written as a header line. */
  lemma CategoryHeaderText()
    ensures Text.Join(CategoryColumns, ",") == "Category,Total_QR,Staff_Assigned"
  {
    var xs := CategoryColumns;
    assert xs[1..] == ["Total_QR", "Staff_Assigned"];
    assert xs[1..][1..] == ["Staff_Assigned"];
    assert Text.Join(xs[1..][1..], ",") == "Staff_Assigned";
    var tail := Text.Join(xs[1..], ",");
    assert tail == "Total_QR" + "," + "Staff_Assigned";
    assert Text.Join(xs, ",") == "Category" + "," + tail;
  }
}

=== FILE: flatten.dfy ===
/** The staff operational report (`Reports/staffoperational.jsx`): `flattenData`
    turns the report object into a flat list of `{metric, value}` rows, expanding
    object- and array-valued sections one level deep. */
module OperationalReport {
  import opened Base
  import opened Js
  import Text

  /** One displayed row. */
  datatype MetricRow = MetricRow(metric: string, value: Value)

  /** The separator between a section and a sub-key, as the file spells it: the
      UTF-8 bytes of an arrow read back as Windows-1252, i.e. " â†’ ". */
  const Arrow: string := " \U{E2}\U{2020}\U{2019} "

  const LoadFailedMsg: string := "Failed to load operational report. Please try again later."

  /** `typeof v === "object" && v !== null`: objects and arrays. */
  predicate IsObject(v: Value)
  {
    v.Obj? || v.Arr?
  }

  /** The entries of an object-valued section (arrays by index). */
  function SubEntries(v: Value): Fields
    requires IsObject(v)
  {
    Entries(v).value
  }

  /** The rows one section contributes: one per entry of an object or array,
      otherwise the single row `{metric: section, value}`. */
  function SectionRows(section: string, v: Value): (rows: seq<MetricRow>)
    ensures !IsObject(v) ==> rows == [MetricRow(section, v)]
    ensures IsObject(v) ==> |rows| == |SubEntries(v)|
    ensures IsObject(v) ==> forall j :: 0 <= j < |rows| ==>
              rows[j] == MetricRow(section + Arrow + SubEntries(v)[j].0, SubEntries(v)[j].1)
  {
    if IsObject(v) then
      var es := SubEntries(v);
      seq(|es|, j requires 0 <= j < |es| => MetricRow(section + Arrow + es[j].0, es[j].1))
    else [MetricRow(section, v)]
  }

  /** The `forEach` over the report's entries, pushing each section's rows in turn. */
  function FlattenEntries(es: Fields): seq<MetricRow>
    decreases |es|
  {
    if |es| == 0 then [] else SectionRows(es[0].0, es[0].1) + FlattenEntries(es[1..])
  }

  /** How many rows a section is worth: its number of entries if it is an object
      or array (so an empty one is worth nothing), otherwise one. */
  function Weight(v: Value): nat
  {
    if IsObject(v) then |SubEntries(v)| else 1
  }

  function TotalWeight(es: Fields): nat
    decreases |es|
  {
    if |es| == 0 then 0 else Weight(es[0].1) + TotalWeight(es[1..])
  }

  /** The number of rows is the sum of the sections' weights. */
  lemma {:induction false} FlattenCount(es: Fields)
    ensures |FlattenEntries(es)| == TotalWeight(es)
    decreases |es|
  {
    if |es| > 0 {
      FlattenCount(es[1..]);
    }
  }

  /** `flattenData(data)`: `Object.entries` throws on `null`/`undefined`; any other
      report is flattened, with as many rows as its sections' weights add up to. */
  function FlattenData(data: Value): (r: Result<seq<MetricRow>, Thrown>)
    ensures r.Err? <==> Nullish(data)
    ensures r.Ok? ==> |r.value| == TotalWeight(Entries(data).value)
    ensures data.Num? || data.Bool? ==> r == Ok([])
  {
    match Entries(data)
    case Err(e) => Err(e)
    case Ok(es) => FlattenCount(es); Ok(FlattenEntries(es))
  }

  /** Flattening distributes over concatenation of the section list. */
  lemma {:induction false} FlattenAppend(a: Fields, b: Fields)
    ensures FlattenEntries(a + b) == FlattenEntries(a) + FlattenEntries(b)
    decreases |a|
  {
    if |a| == 0 {
      assert a + b == b;
    } else {
      assert (a + b)[1..] == a[1..] + b;
      FlattenAppend(a[1..], b);
    }
  }

  /** Order is kept: the rows of section `i` come after those of every earlier
      section, before those of every later one, and are contiguous. */
  lemma SectionInPlace(es: Fields, i: int)
    requires 0 <= i < |es|
    ensures FlattenEntries(es)
         == FlattenEntries(es[..i]) + SectionRows(es[i].0, es[i].1) + FlattenEntries(es[i + 1..])
  {
    var rest := es[i..];
    assert es == es[..i] + rest;
    FlattenAppend(es[..i], rest);
    FlattenFirst(rest);
    assert rest[0] == es[i] && rest[1..] == es[i + 1..];
    ConcatAssoc(FlattenEntries(es[..i]), SectionRows(es[i].0, es[i].1), FlattenEntries(es[i + 1..]));
  }

  /** The first section's rows come first. */
  lemma FlattenFirst(es: Fields)
    requires |es| > 0
    ensures FlattenEntries(es) == SectionRows(es[0].0, es[0].1) + FlattenEntries(es[1..])
  {
  }

  lemma ConcatAssoc(a: seq<MetricRow>, b: seq<MetricRow>, c: seq<MetricRow>)
    ensures a + (b + c) == a + b + c
  {
  }

  /** Where a row comes from: section `name` itself when its value is a scalar or
      `null`, or one entry of the section's object or array, value copied as is. */
  predicate RowFrom(row: MetricRow, name: string, v: Value)
  {
    if IsObject(v) then
      exists j :: 0 <= j < |SubEntries(v)| &&
        row == MetricRow(name + Arrow + SubEntries(v)[j].0, SubEntries(v)[j].1)
    else row == MetricRow(name, v)
  }

  /** Only one level is flattened: every row is a section's scalar value or one of
      an object-valued section's entries, copied unchanged (nested objects stay
      whole). */
  lemma {:induction false} EveryRowFromASection(es: Fields)
    ensures forall k :: 0 <= k < |FlattenEntries(es)| ==>
              exists i :: 0 <= i < |es| && RowFrom(FlattenEntries(es)[k], es[i].0, es[i].1)
    decreases |es|
  {
    if |es| > 0 {
      EveryRowFromASection(es[1..]);
      var head := SectionRows(es[0].0, es[0].1);
      var rows := FlattenEntries(es);
      assert rows == head + FlattenEntries(es[1..]);
      forall k | 0 <= k < |rows|
        ensures exists i :: 0 <= i < |es| && RowFrom(rows[k], es[i].0, es[i].1)
      {
        if k < |head| {
          assert rows[k] == head[k];
          if IsObject(es[0].1) {
            var sub := SubEntries(es[0].1);
            assert rows[k] == MetricRow(es[0].0 + Arrow + sub[k].0, sub[k].1);
          }
          assert RowFrom(rows[k], es[0].0, es[0].1);
          assert 0 <= 0 < |es| && RowFrom(rows[k], es[0].0, es[0].1);
        } else {
          var k' := k - |head|;
          assert rows[k] == FlattenEntries(es[1..])[k'];
          var i' :| 0 <= i' < |es[1..]| && RowFrom(FlattenEntries(es[1..])[k'], es[1..][i'].0, es[1..][i'].1);
          assert es[1..][i'] == es[i' + 1];
          assert 0 <= i' + 1 < |es| && RowFrom(rows[k], es[i' + 1].0, es[i' + 1].1);
        }
      }
    } else {
      assert FlattenEntries(es) == [];
    }
  }

  /** An array-valued section is flattened by index: sub-key `j` is the decimal
      text of `j`. */
  lemma ArraySectionByIndex(section: string, items: seq<Value>)
    ensures var rows := SectionRows(section, Arr(items));
      && |rows| == |items|
      && forall j :: 0 <= j < |items| ==>
           rows[j] == MetricRow(section + Arrow + Text.Decimal(j), items[j])
  {
  }

  /** A worked example: a scalar section, an object section and an empty object. */
  lemma ExampleFlatten()
    ensures FlattenData(Obj([("total", Num(3)), ("by_staff", Obj([("ann", Num(2))])), ("none", Obj([]))]))
         == Ok([MetricRow("total", Num(3)), MetricRow("by_staff" + Arrow + "ann", Num(2))])
  {
    var es: Fields := [("total", Num(3)), ("by_staff", Obj([("ann", Num(2))])), ("none", Obj([]))];
    assert es[1..][1..][1..] == [];
    assert FlattenEntries(es[1..][1..]) == [];
    assert SectionRows("by_staff", Obj([("ann", Num(2))])) == [MetricRow("by_staff" + Arrow + "ann", Num(2))];
    assert FlattenEntries(es[1..]) == [MetricRow("by_staff" + Arrow + "ann", Num(2))];
    assert FlattenEntries(es) == [MetricRow("total", Num(3))] + FlattenEntries(es[1..]);
    assert Entries(Obj(es)) == Ok(es);
    assert FlattenEntries(es) == [MetricRow("total", Num(3)), MetricRow("by_staff" + Arrow + "ann", Num(2))];
    assert FlattenData(Obj(es)) == Ok(FlattenEntries(es));
  }

  // ---------------------------------------------------------------------------
  // `fetchOperationalReport`.

  /** The page's state: the rows shown and the error text. */
  datatype View = View(rows: seq<MetricRow>, error: string)

  /** The fetch: `response` is the body of a successful GET, `None` a rejected one.
      The error is cleared first; the rows are replaced only when the response
      flattens, otherwise they stay and the error message is set. */
  function Fetch(view: View, response: Option<Value>): (r: View)
    ensures response.Some? && !Nullish(response.value) ==>
              r.error == "" && |r.rows| == TotalWeight(Entries(response.value).value)
    ensures response.Some? && !Nullish(response.value) ==> r == View(FlattenData(response.value).value, "")
    ensures response.None? || Nullish(response.value) ==> r == View(view.rows, LoadFailedMsg)
  {
    match response
    case None => View(view.rows, LoadFailedMsg)
    case Some(data) =>
      match FlattenData(data)
      case Err(_) => View(view.rows, LoadFailedMsg)
      case Ok(rows) => View(rows, "")
  }
}

=== FILE: http.dfy ===
/** The requests a component would send to the REST backend, and the foreign
    parsers (`JSON.parse`, `new URL(...).searchParams`) the components call. */
module Http {
  import opened Base
  import opened Js

  datatype Verb = GET | POST | PUT

  /** One request as the component builds it: verb, path relative to the API base,
      and the object literal passed as the body (empty for GET). */
  datatype Request = Request(verb: Verb, path: string, body: Fields)

  /** `JSON.parse`: a foreign partial function; `None` stands for a `SyntaxError`. */
  type JsonParser = string -> Option<Value>

  /** The query parameters of a parsed URL, in order of appearance. */
  type SearchParams = seq<(string, string)>

  /** `new URL(s).searchParams`: a foreign partial function; `None` stands for the
      `TypeError` an invalid URL raises. */
  type UrlParser = string -> Option<SearchParams>

  /** `searchParams.get(name)`: the first value given for `name`, `null` when absent. */
  function ParamGet(ps: SearchParams, name: string): (r: Value)
    ensures r == Null || r.Str?
    ensures r == Null <==> forall i :: 0 <= i < |ps| ==> ps[i].0 != name
    ensures r.Str? ==> exists i :: 0 <= i < |ps| && ps[i] == (name, r.s)
  {
    if |ps| == 0 then Null
    else if ps[0].0 == name then Str(ps[0].1)
    else ParamGet(ps[1..], name)
  }

  /** The list a listing endpoint answered with: the response itself when it is an
      array, otherwise its `results` field, otherwise `[]`
      (`Array.isArray(d) ? d : d.results || []`). Reading `results` of a `null`
      body throws. */
  function ListOrResults(data: Value): (r: Result<Value, Thrown>)
    ensures data.Arr? ==> r == Ok(data)
    ensures r.Err? <==> Nullish(data)
    ensures !data.Arr? && !Nullish(data) && Truthy(Prop(data, "results")) ==> r == Ok(Prop(data, "results"))
    ensures !data.Arr? && !Nullish(data) && !Truthy(Prop(data, "results")) ==> r == Ok(Arr([]))
  {
    if data.Arr? then Ok(data)
    else match Get(data, "results")
      case Threw => Err(TypeError)
      case Got(results) => Ok(Or(results, Arr([])))
  }

  /** The members JSON serialisation puts on the wire: `JSON.stringify` omits every
      member whose value is `undefined`, keeping the others in order. */
  function WireFields(body: Fields): (w: Fields)
    ensures forall e :: e in w <==> e in body && e.1 != Undefined
    ensures |w| <= |body|
  {
    if |body| == 0 then []
    else if body[0].1 == Undefined then WireFields(body[1..])
    else [body[0]] + WireFields(body[1..])
  }
}

=== FILE: js.dfy ===
/** The slice of JavaScript semantics the console's components depend on: JSON-like
    values, truthiness, `||`, property access (which throws on `null`/`undefined`),
    `Object.entries`, and conversion to string as `Array.prototype.join` performs it. */
module Js {
  import opened Base
  import Text

  /** A JavaScript value as it reaches the components from `JSON.parse` or an HTTP
      response. Objects are ordered key/value lists in enumeration order, because
      `Object.keys` and `Object.entries` expose that order. Numbers are integers. */
  datatype Value =
    | Undefined
    | Null
    | Bool(b: bool)
    | Num(n: int)
    | Str(s: string)
    | Arr(items: seq<Value>)
    | Obj(fields: seq<(string, Value)>)

  type Fields = seq<(string, Value)>

  /** `!!v`: `undefined`, `null`, `false`, `0` and `""` are falsy; everything else,
      including every array and object, is truthy. */
  predicate Truthy(v: Value)
  {
    match v
    case Undefined => false
    case Null => false
    case Bool(b) => b
    case Num(n) => n != 0
    case Str(s) => s != ""
    case Arr(_) => true
    case Obj(_) => true
  }

  /** `a || b`: the left operand when it is truthy, the right one otherwise. */
  function Or(a: Value, b: Value): (r: Value)
    ensures Truthy(a) ==> r == a
    ensures !Truthy(a) ==> r == b
  {
    if Truthy(a) then a else b
  }

  /** The values whose property access throws a `TypeError`. */
  predicate Nullish(v: Value)
  {
    v == Undefined || v == Null
  }

  /** The value stored under `k` in an object literal, `undefined` when absent.
      The first entry wins; a well-formed object has each key once. */
  function Lookup(fields: Fields, k: string): Value
  {
    if |fields| == 0 then Undefined
    else if fields[0].0 == k then fields[0].1
    else Lookup(fields[1..], k)
  }

  /** The keys of an object, in enumeration order (`Object.keys`). */
  function Keys(fields: Fields): (ks: seq<string>)
    ensures |ks| == |fields|
    ensures forall i :: 0 <= i < |fields| ==> ks[i] == fields[i].0
  {
    if |fields| == 0 then [] else [fields[0].0] + Keys(fields[1..])
  }

  /** `Lookup` finds exactly the keys that are present. */
  lemma {:induction false} LookupPresent(fields: Fields, k: string)
    ensures k !in Keys(fields) ==> Lookup(fields, k) == Undefined
    ensures forall i :: 0 <= i < |fields| && fields[i].0 == k && k !in Keys(fields[..i])
              ==> Lookup(fields, k) == fields[i].1
  {
    if |fields| > 0 {
      LookupPresent(fields[1..], k);
      forall i | 0 <= i < |fields| && fields[i].0 == k && k !in Keys(fields[..i])
        ensures Lookup(fields, k) == fields[i].1
      {
        if i > 0 {
          assert Keys(fields[..i])[0] == fields[0].0;
          assert fields[1..][i - 1] == fields[i];
          assert Keys(fields[1..][..i - 1]) == Keys(fields[..i])[1..];
        }
      }
    }
  }

  /** The entry at position `i` is the one `Lookup` finds when no earlier entry
      has its key. */
  lemma {:induction false} LookupAt(fields: Fields, i: int)
    requires 0 <= i < |fields|
    requires forall j :: 0 <= j < i ==> fields[j].0 != fields[i].0
    ensures Lookup(fields, fields[i].0) == fields[i].1
    decreases i
  {
    if i > 0 {
      assert fields[1..][i - 1] == fields[i];
      assert forall j :: 0 <= j < i - 1 ==> fields[1..][j] == fields[j + 1];
      LookupAt(fields[1..], i - 1);
    }
  }

  /** The keys of a concatenation are the keys of the parts, in order. */
  lemma KeysAppend(a: Fields, b: Fields)
    ensures Keys(a + b) == Keys(a) + Keys(b)
  {
    assert forall i :: 0 <= i < |a + b| ==> Keys(a + b)[i] == (Keys(a) + Keys(b))[i];
  }

  /** `v[k]` on a value that is neither `null` nor `undefined`. Arrays and strings
      answer `length` and their index keys; every other key of a primitive or array
      reads as `undefined`. */
  function Prop(v: Value, k: string): Value
    requires !Nullish(v)
  {
    match v
    case Obj(fields) => Lookup(fields, k)
    case Arr(items) =>
      if k == "length" then Num(|items|)
      else (match Text.ParseIndex(k)
        case Some(i) => if i < |items| then items[i] else Undefined
        case None => Undefined)
    case Str(s) =>
      if k == "length" then Num(|s|)
      else (match Text.ParseIndex(k)
        case Some(i) => if i < |s| then Str([s[i]]) else Undefined
        case None => Undefined)
    case _ => Undefined
  }

  /** The outcome of `v.k`: a `TypeError` on `null`/`undefined`, the property otherwise. */
  datatype Access = Threw | Got(value: Value)

  function Get(v: Value, k: string): (a: Access)
    ensures a.Threw? <==> Nullish(v)
    ensures a.Got? ==> a.value == Prop(v, k)
  {
    if Nullish(v) then Threw else Got(Prop(v, k))
  }

  /** `v?.k`: `undefined` on `null`/`undefined` instead of throwing. */
  function OptProp(v: Value, k: string): (r: Value)
    ensures Nullish(v) ==> r == Undefined
    ensures !Nullish(v) ==> r == Prop(v, k)
  {
    if Nullish(v) then Undefined else Prop(v, k)
  }

  /** Only objects carry named fields: every key an object lacks, and every named
      (non-index, non-`length`) key of another non-nullish value, reads as `undefined`. */
  lemma PropOfNonObject(v: Value, k: string)
    requires !Nullish(v) && !v.Obj?
    requires k != "length" && Text.ParseIndex(k) == None
    ensures Prop(v, k) == Undefined
  {
  }

  /** Element `i` of an array is reached through the key `String(i)`. */
  lemma ArrayIndexProp(items: seq<Value>, i: nat)
    requires i < |items|
    ensures Prop(Arr(items), Text.Decimal(i)) == items[i]
  {
    Text.IndexKeyRoundTrip(i, Text.Decimal(i));
    assert Text.Decimal(i) != "length" by {
      assert "length"[0] == 'l';
      assert Text.IsDigit(Text.Decimal(i)[0]);
    }
  }

  /** `Object.entries(items)` of an array: index keys in ascending order. */
  function IndexedEntries(items: seq<Value>): (es: Fields)
    ensures |es| == |items|
    ensures forall i :: 0 <= i < |items| ==> es[i] == (Text.Decimal(i), items[i])
  {
    seq(|items|, i requires 0 <= i < |items| => (Text.Decimal(i), items[i]))
  }

  /** `Object.entries(s)` of a string: one entry per character. */
  function CharEntries(s: string): (es: Fields)
    ensures |es| == |s|
    ensures forall i :: 0 <= i < |s| ==> es[i] == (Text.Decimal(i), Str([s[i]]))
  {
    seq(|s|, i requires 0 <= i < |s| => (Text.Decimal(i), Str([s[i]])))
  }

  /** `Object.entries(v)`: throws on `null`/`undefined`, lists the own enumerable
      entries of objects, arrays and strings, and is empty for numbers and booleans. */
  function Entries(v: Value): (r: Result<Fields, Thrown>)
    ensures r.Err? <==> Nullish(v)
    ensures v.Obj? ==> r == Ok(v.fields)
  {
    match v
    case Undefined => Err(TypeError)
    case Null => Err(TypeError)
    case Obj(fields) => Ok(fields)
    case Arr(items) => Ok(IndexedEntries(items))
    case Str(s) => Ok(CharEntries(s))
    case _ => Ok([])
  }

  /** `String(v)`: the text `Array.prototype.join`, template literals and `new URL`
      produce from a value. Arrays render as their elements joined by ","; plain
      objects as "[object Object]". */
  function ToStr(v: Value): string
    decreases v, 2
  {
    match v
    case Undefined => "undefined"
    case Null => "null"
    case Bool(b) => if b then "true" else "false"
    case Num(n) => Text.IntToString(n)
    case Str(s) => s
    case Arr(items) => ArrayJoin(v, ",")
    case Obj(_) => "[object Object]"
  }

  /** `arr.join(sep)`: `null`/`undefined` elements become empty pieces, every other
      element its `String` text. */
  function ArrayJoin(arr: Value, sep: string): string
    requires arr.Arr?
    decreases arr, 1
  {
    Text.Join(seq(|arr.items|, i requires 0 <= i < |arr.items| => JoinPiece(arr, i)), sep)
  }

  function JoinPiece(arr: Value, i: int): string
    requires arr.Arr? && 0 <= i < |arr.items|
    decreases arr, 0
  {
    var x := arr.items[i];
    if Nullish(x) then "" else ToStr(x)
  }

  /** The pieces `ArrayJoin` glues together, one per element. */
  lemma ArrayJoinPieces(items: seq<Value>, sep: string)
    ensures ArrayJoin(Arr(items), sep)
         == Text.Join(seq(|items|, i requires 0 <= i < |items| =>
              if Nullish(items[i]) then "" else ToStr(items[i])), sep)
  {
    var a := seq(|items|, i requires 0 <= i < |items| => JoinPiece(Arr(items), i));
    var b := seq(|items|, i requires 0 <= i < |items| =>
              if Nullish(items[i]) then "" else ToStr(items[i]));
    assert a == b;
  }
}

=== FILE: lenient_scan.dfy ===
/** The lenient QR scan handler of the staff scan page (`handleResult` in
    `ScanQRCode.jsx`): it accepts a bare token id, a JSON object with
    `token_id`/`category_id`, or a JSON object whose `url` carries them as query
    parameters, and either shows the token or asks the backend to call it. */
module LenientScan {
  import opened Base
  import opened Js
  import opened Http
  import opened Reader
  import Text

  /** The identifiers a scan resolves to; `categoryId` starts out `null`. */
  datatype Ids = Ids(tokenId: Value, categoryId: Value)

  /** The component's state: `scannedToken`, `error` and `loading`. */
  datatype ScanState = ScanState(scannedToken: Value, error: string, loading: bool)

  /** What became of the scanner's `error` argument. */
  datatype NoiseVerdict = NoScannerError | Swallowed | Logged

  /** One invocation of the callback: the new state, the request it issues (if any)
      and what it did with the scanner error. */
  datatype Step = Step(state: ScanState, request: Option<Request>, noise: NoiseVerdict)

  const InvalidMsg: string := "Invalid QR Code"
  const CallFailedMsg: string := "Failed to call token."

  /** The starting point before any parsing: the raw text is the token, no category. */
  function RawIds(text: string): Ids
  {
    Ids(Str(text), Null)
  }

  /** The payload's own fields replace the identifiers only when truthy. */
  function FromFields(text: string, payload: Value): (ids: Ids)
    requires !Nullish(payload)
    ensures Truthy(Prop(payload, "token_id")) ==> ids.tokenId == Prop(payload, "token_id")
    ensures !Truthy(Prop(payload, "token_id")) ==> ids.tokenId == Str(text)
    ensures Truthy(Prop(payload, "category_id")) ==> ids.categoryId == Prop(payload, "category_id")
    ensures !Truthy(Prop(payload, "category_id")) ==> ids.categoryId == Null
  {
    Ids(Or(Prop(payload, "token_id"), Str(text)), Or(Prop(payload, "category_id"), Null))
  }

  /** A truthy `url` that parses lets its non-empty `token_id`/`category_id` query
      parameters override; a falsy or unparseable `url` changes nothing. */
  function ApplyUrl(ids: Ids, url: Value, parseUrl: UrlParser): (r: Ids)
    ensures !Truthy(url) ==> r == ids
    ensures Truthy(url) && parseUrl(ToStr(url)).None? ==> r == ids
  {
    if !Truthy(url) then ids
    else match parseUrl(ToStr(url))
      case None => ids
      case Some(ps) =>
        Ids(Or(ParamGet(ps, "token_id"), ids.tokenId), Or(ParamGet(ps, "category_id"), ids.categoryId))
  }

  /** Payload resolution: JSON first, then the `url` override; text that is not
      JSON, or JSON whose field access throws, is kept verbatim as the token id. */
  function Resolve(text: string, parse: JsonParser, parseUrl: UrlParser): (ids: Ids)
    ensures parse(text).None? ==> ids == RawIds(text)
    ensures parse(text).Some? && Nullish(parse(text).value) ==> ids == RawIds(text)
    ensures ids.categoryId == Null || Truthy(ids.categoryId)
    ensures text != "" ==> Truthy(ids.tokenId)
  {
    match parse(text)
    case None => RawIds(text)
    case Some(payload) =>
      match Get(payload, "token_id")
      case Threw => RawIds(text)
      case Got(_) => ApplyUrl(FromFields(text, payload), Prop(payload, "url"), parseUrl)
  }

  /** The decision after resolution: an invalid token id is reported; a truthy
      category triggers exactly one manual call; otherwise the token is only shown. */
  function Dispatch(s: ScanState, ids: Ids, backendOk: bool): (r: (ScanState, Option<Request>))
    ensures r.1.Some? <==> Truthy(ids.tokenId) && Truthy(ids.categoryId)
    ensures r.1.Some? ==> r.1 == Some(ScanCall(ids.tokenId, ids.categoryId)) && !r.0.loading
    ensures r.0.scannedToken == Null || r.0.scannedToken == ids.tokenId
    ensures r.1.Some? ==> (r.0.scannedToken == ids.tokenId <==> backendOk)
  {
    if !Truthy(ids.tokenId) then (ScanState(Null, InvalidMsg, s.loading), None)
    else if Truthy(ids.categoryId) then
      if backendOk then (ScanState(ids.tokenId, "", false), Some(ScanCall(ids.tokenId, ids.categoryId)))
      else (ScanState(Null, CallFailedMsg, false), Some(ScanCall(ids.tokenId, ids.categoryId)))
    else (ScanState(ids.tokenId, "", s.loading), None)
  }

  /** Known decoder noise (a message mentioning `selectBestPatterns`, or a
      `NotFoundException`) is swallowed; any other scanner error is only logged. */
  function ClassifyNoise(err: Option<ScannerError>): (v: NoiseVerdict)
    ensures v == NoScannerError <==> err.None?
    ensures v == Swallowed <==>
      err.Some? && ((err.value.message.Some? && Text.Includes(err.value.message.value, "selectBestPatterns"))
                    || err.value.name == Some("NotFoundException"))
  {
    match err
    case None => NoScannerError
    case Some(e) =>
      if (e.message.Some? && Text.Includes(e.message.value, "selectBestPatterns"))
         || e.name == Some("NotFoundException")
      then Swallowed
      else Logged
  }
  /** Matching is by substring: any message that mentions `selectBestPatterns`,
      whatever surrounds it and whatever the error's name, is swallowed. */
  lemma NoiseBySubstring(prefix: string, suffix: string, name: Option<string>)
    ensures ClassifyNoise(Some(ScannerError(Some(prefix + "selectBestPatterns" + suffix), name))) == Swallowed
  {
    var m := prefix + "selectBestPatterns" + suffix;
    var t := "selectBestPatterns";
    assert m[|prefix|..|prefix| + |t|] == t;
    assert Text.OccursAt(m, t, |prefix|);
    Text.IncludesIff(m, t);
  }


  /** The whole callback: a result with falsy text changes nothing and sends nothing;
      otherwise the state is first cleared, then resolution and dispatch run. The
      scanner error, if any, is classified independently. `backendOk` is the
      backend's answer to the manual call, when one is sent. */
  function HandleResult(s: ScanState, result: Option<ScanResult>, err: Option<ScannerError>,
                        parse: JsonParser, parseUrl: UrlParser, backendOk: bool): (step: Step)
    ensures !HasText(result) ==> step.state == s && step.request == None
    ensures step.request.Some? ==> step.request.value.verb == POST && step.request.value.path == ScanCallPath
    ensures step.noise == ClassifyNoise(err)
  {
    var effect :=
      if HasText(result) then
        Dispatch(ScanState(Null, "", s.loading), Resolve(TextOf(result), parse, parseUrl), backendOk)
      else (s, None);
    Step(effect.0, effect.1, ClassifyNoise(err))
  }

  // ---------------------------------------------------------------------------
  // Properties of the resolution and dispatch rules.

  /** A payload that parses to a non-null value without a truthy `url` takes its
      identifiers from its own truthy fields, and keeps the prior values otherwise. */
  lemma TopLevelFieldsOverride(text: string, parse: JsonParser, parseUrl: UrlParser)
    requires parse(text).Some? && !Nullish(parse(text).value)
    requires !Truthy(Prop(parse(text).value, "url"))
    ensures var p := parse(text).value; var ids := Resolve(text, parse, parseUrl);
      && (Truthy(Prop(p, "token_id")) ==> ids.tokenId == Prop(p, "token_id"))
      && (!Truthy(Prop(p, "token_id")) ==> ids.tokenId == Str(text))
      && (Truthy(Prop(p, "category_id")) ==> ids.categoryId == Prop(p, "category_id"))
      && (!Truthy(Prop(p, "category_id")) ==> ids.categoryId == Null)
  {
  }

  /** With a truthy `url` that parses, a non-empty query parameter wins over the
      payload's field; an absent or empty one keeps the value from the fields. */
  lemma UrlParamsOverride(text: string, parse: JsonParser, parseUrl: UrlParser, ps: SearchParams)
    requires parse(text).Some? && !Nullish(parse(text).value)
    requires Truthy(Prop(parse(text).value, "url"))
    requires parseUrl(ToStr(Prop(parse(text).value, "url"))) == Some(ps)
    ensures var before := FromFields(text, parse(text).value);
            var ids := Resolve(text, parse, parseUrl);
      && (forall t :: ParamGet(ps, "token_id") == Str(t) && t != "" ==> ids.tokenId == Str(t))
      && (!Truthy(ParamGet(ps, "token_id")) ==> ids.tokenId == before.tokenId)
      && (forall c :: ParamGet(ps, "category_id") == Str(c) && c != "" ==> ids.categoryId == Str(c))
      && (!Truthy(ParamGet(ps, "category_id")) ==> ids.categoryId == before.categoryId)
  {
  }

  /** An unparseable `url` leaves the identifiers the payload's fields gave. */
  lemma UnparseableUrlIgnored(text: string, parse: JsonParser, parseUrl: UrlParser)
    requires parse(text).Some? && !Nullish(parse(text).value)
    requires parseUrl(ToStr(Prop(parse(text).value, "url"))).None?
    ensures Resolve(text, parse, parseUrl) == FromFields(text, parse(text).value)
  {
  }

  /** The "Invalid QR Code" branch is dead: every scan that gets past the text guard
      resolves to a truthy token id, so the error is never set to that message. */
  lemma InvalidBranchUnreachable(s: ScanState, result: Option<ScanResult>, err: Option<ScannerError>,
                                 parse: JsonParser, parseUrl: UrlParser, backendOk: bool)
    requires s.error != InvalidMsg
    ensures HandleResult(s, result, err, parse, parseUrl, backendOk).state.error != InvalidMsg
  {
  }

  /** A scan with text issues the manual call exactly when the resolved category is
      truthy, with the resolved identifiers; the token is shown only if that call
      succeeds, and a failed call leaves it unset with the failure message. */
  lemma CallIffCategory(s: ScanState, result: Option<ScanResult>, err: Option<ScannerError>,
                        parse: JsonParser, parseUrl: UrlParser, backendOk: bool)
    requires HasText(result)
    ensures var ids := Resolve(TextOf(result), parse, parseUrl);
            var step := HandleResult(s, result, err, parse, parseUrl, backendOk);
      && (Truthy(ids.categoryId) ==>
            && step.request == Some(ScanCall(ids.tokenId, ids.categoryId))
            && !step.state.loading
            && (backendOk ==> step.state.scannedToken == ids.tokenId && step.state.error == "")
            && (!backendOk ==> step.state.scannedToken == Null && step.state.error == CallFailedMsg))
      && (!Truthy(ids.categoryId) ==>
            && step.request == None
            && step.state.scannedToken == ids.tokenId
            && step.state.error == "")
  {
  }

  // ---------------------------------------------------------------------------
  // Worked examples of the three payload shapes.

  /** A bare token id is shown as is, with no request. */
  lemma ExampleBareToken(parseUrl: UrlParser)
    ensures var parse: JsonParser := (t: string) => None;
            var step := HandleResult(ScanState(Null, "", false), Some(ScanResult(Some("ABC123"))),
                                     None, parse, parseUrl, true);
      step.request == None && step.state.scannedToken == Str("ABC123")
  {
  }

  /** Query parameters of the embedded `url` supply both identifiers. */
  lemma ExampleUrlPayload()
    ensures var u := "https://x/?token_id=T2&category_id=9";
            var parse: JsonParser := (t: string) => Some(Obj([("url", Str(u))]));
            var parseUrl: UrlParser := (t: string) =>
              if t == u then Some([("token_id", "T2"), ("category_id", "9")]) else None;
      Resolve("{\"url\":\"" + u + "\"}", parse, parseUrl) == Ids(Str("T2"), Str("9"))
  {
  }
}

=== FILE: lists.dfy ===
/** `Array.prototype.filter` and `Array.prototype.find` over sequences, with the
    facts the screens' search and display rules rely on. */
module Lists {
  import opened Base

  /** `xs.filter(p)`: the elements satisfying `p`, in their original order. */
  function Filter<T>(xs: seq<T>, p: T -> bool): (r: seq<T>)
    ensures |r| <= |xs|
    ensures forall i :: 0 <= i < |r| ==> r[i] in xs && p(r[i])
    ensures forall i :: 0 <= i < |xs| && p(xs[i]) ==> xs[i] in r
    decreases |xs|
  {
    if |xs| == 0 then []
    else
      var rest := Filter(xs[1..], p);
      assert forall i :: 1 <= i < |xs| ==> xs[i] == xs[1..][i - 1];
      (if p(xs[0]) then [xs[0]] else []) + rest
  }

  /** Filtering distributes over concatenation, so relative order is kept: what
      survives from a prefix comes before what survives from the rest. */
  lemma {:induction false} FilterAppend<T>(a: seq<T>, b: seq<T>, p: T -> bool)
    ensures Filter(a + b, p) == Filter(a, p) + Filter(b, p)
    decreases |a|
  {
    if |a| == 0 {
      assert a + b == b;
    } else {
      assert (a + b)[0] == a[0];
      assert (a + b)[1..] == a[1..] + b;
      FilterAppend(a[1..], b, p);
    }
  }

  /** A single element survives exactly when it satisfies the predicate. */
  lemma FilterSingleton<T>(x: T, p: T -> bool)
    ensures Filter([x], p) == if p(x) then [x] else []
  {
    assert [x][1..] == [];
  }

  /** Filtering again with a predicate at least as strict as the first gives the
      same list as filtering once with the stricter one; with the same predicate,
      filtering is idempotent. */
  lemma {:induction false} FilterNarrower<T>(xs: seq<T>, p: T -> bool, q: T -> bool)
    requires forall x :: q(x) ==> p(x)
    ensures Filter(Filter(xs, p), q) == Filter(xs, q)
    decreases |xs|
  {
    if |xs| > 0 {
      var head := if p(xs[0]) then [xs[0]] else [];
      FilterAppend(head, Filter(xs[1..], p), q);
      FilterNarrower(xs[1..], p, q);
      if p(xs[0]) {
        FilterSingleton(xs[0], q);
      } else {
        assert !q(xs[0]);
        assert head == [];
        assert Filter(head, q) == [];
      }
    }
  }

  lemma FilterIdempotent<T>(xs: seq<T>, p: T -> bool)
    ensures Filter(Filter(xs, p), p) == Filter(xs, p)
  {
    FilterNarrower(xs, p, p);
  }

  /** Everything survives when every element satisfies the predicate. */
  lemma {:induction false} FilterAll<T>(xs: seq<T>, p: T -> bool)
    requires forall i :: 0 <= i < |xs| ==> p(xs[i])
    ensures Filter(xs, p) == xs
    decreases |xs|
  {
    if |xs| > 0 {
      FilterAll(xs[1..], p);
      assert [xs[0]] + xs[1..] == xs;
    }
  }

  /** Predicates that agree on every element filter alike. */
  lemma {:induction false} FilterCongruent<T>(xs: seq<T>, p: T -> bool, q: T -> bool)
    requires forall i :: 0 <= i < |xs| ==> p(xs[i]) == q(xs[i])
    ensures Filter(xs, p) == Filter(xs, q)
    decreases |xs|
  {
    if |xs| > 0 {
      assert forall i :: 0 <= i < |xs[1..]| ==> xs[1..][i] == xs[i + 1];
      FilterCongruent(xs[1..], p, q);
    }
  }

  /** Nothing survives when no element satisfies the predicate. */
  lemma {:induction false} FilterNone<T>(xs: seq<T>, p: T -> bool)
    requires forall i :: 0 <= i < |xs| ==> !p(xs[i])
    ensures Filter(xs, p) == []
    decreases |xs|
  {
    if |xs| > 0 {
      assert forall i :: 0 <= i < |xs[1..]| ==> xs[1..][i] == xs[i + 1];
      FilterNone(xs[1..], p);
    }
  }

  /** `xs.find(p)`: the first element satisfying `p`, if any. */
  function Find<T>(xs: seq<T>, p: T -> bool): (r: Option<T>)
    ensures r.None? <==> forall i :: 0 <= i < |xs| ==> !p(xs[i])
    ensures r.Some? ==> exists i :: 0 <= i < |xs| && xs[i] == r.value && p(xs[i])
                                    && forall j :: 0 <= j < i ==> !p(xs[j])
    decreases |xs|
  {
    if |xs| == 0 then None
    else if p(xs[0]) then Some(xs[0])
    else
      var r := Find(xs[1..], p);
      if r.Some? then
        assert exists i :: 0 <= i < |xs| && xs[i] == r.value && p(xs[i])
                           && forall j :: 0 <= j < i ==> !p(xs[j]) by {
          var i' :| 0 <= i' < |xs[1..]| && xs[1..][i'] == r.value && p(xs[1..][i'])
                    && forall j :: 0 <= j < i' ==> !p(xs[1..][j]);
          assert xs[i' + 1] == r.value;
          forall j | 0 <= j < i' + 1 ensures !p(xs[j]) {
            if j > 0 { assert xs[j] == xs[1..][j - 1]; }
          }
        }
        r
      else
        assert forall i :: 0 <= i < |xs| ==> !p(xs[i]) by {
          forall i | 0 <= i < |xs| ensures !p(xs[i]) {
            if i > 0 { assert xs[i] == xs[1..][i - 1]; }
          }
        }
        r
  }

  /** `xs.map(f)`: `f` applied to every element, in order. */
  function Map<A, B>(xs: seq<A>, f: A -> B): (ys: seq<B>)
    ensures |ys| == |xs|
    ensures forall i :: 0 <= i < |xs| ==> ys[i] == f(xs[i])
  {
    seq(|xs|, i requires 0 <= i < |xs| => f(xs[i]))
  }

  /** Mapping a concatenation maps each part. */
  lemma MapAppend<A, B>(a: seq<A>, b: seq<A>, f: A -> B)
    ensures Map(a + b, f) == Map(a, f) + Map(b, f)
  {
    var l := Map(a + b, f);
    var r := Map(a, f) + Map(b, f);
    assert forall i :: 0 <= i < |l| ==> l[i] == r[i];
  }
}

=== FILE: queue_monitor.dfy ===
/** The queue monitoring dashboard (`admin/queuemonitor.jsx`): which tokens of a
    live queue are displayed, the live-queue search, the scanner-status query
    string and the guards of the token lookup and emergency forms. */
module QueueMonitor {
  import opened Base
  import opened Js
  import opened Http
  import opened Lists
  import opened Search
  import Text

  /** A live queue: its category's name (`q.category?.name`) and its tokens
      (`q.tokens`, possibly absent). */
  datatype Queue = Queue(categoryName: Option<string>, tokens: Option<seq<Token>>)

  predicate IsWaiting(t: Token)
  {
    t.status == Some("waiting")
  }

  predicate IsCalled(t: Token)
  {
    t.status == Some("called")
  }

  /** The first called token, if any, as a list of at most one. */
  function FirstCalledList(tokens: seq<Token>): (r: seq<Token>)
    ensures |r| <= 1
    ensures |r| == 1 <==> exists i :: 0 <= i < |tokens| && IsCalled(tokens[i])
  {
    match Find(tokens, IsCalled)
    case Some(c) => [c]
    case None => []
  }

  /** `filterTokensForDisplay(tokens)`: the waiting tokens in their original order,
      then the first called token if there is one. Nothing else is displayed:
      completed tokens, and every called token after the first, are hidden. */
  function DisplayTokens(tokens: seq<Token>): (d: seq<Token>)
    ensures forall i :: 0 <= i < |d| ==> IsWaiting(d[i]) || IsCalled(d[i])
    ensures Filter(d, IsWaiting) == Filter(tokens, IsWaiting)
    ensures Filter(d, IsCalled) == FirstCalledList(tokens)
    ensures |d| <= |Filter(tokens, IsWaiting)| + 1
    ensures d[..|Filter(tokens, IsWaiting)|] == Filter(tokens, IsWaiting)
    ensures d[|Filter(tokens, IsWaiting)|..] == FirstCalledList(tokens)
    ensures forall i :: 0 <= i < |d| && IsCalled(d[i]) ==> i == |d| - 1
  {
    var waiting := Filter(tokens, IsWaiting);
    var called := FirstCalledList(tokens);
    DisplayParts(tokens, waiting, called);
    var d := waiting + called;
    assert d[..|waiting|] == waiting && d[|waiting|..] == called;
    assert forall i :: 0 <= i < |waiting| ==> d[i] == waiting[i] && !IsCalled(d[i]);
    d
  }

  lemma DisplayParts(tokens: seq<Token>, waiting: seq<Token>, called: seq<Token>)
    requires waiting == Filter(tokens, IsWaiting) && called == FirstCalledList(tokens)
    ensures Filter(waiting + called, IsWaiting) == waiting
    ensures Filter(waiting + called, IsCalled) == called
  {
    FilterAppend(waiting, called, IsWaiting);
    FilterAppend(waiting, called, IsCalled);
    FilterIdempotent(tokens, IsWaiting);
    FilterAll(called, IsCalled);
    FilterNone(waiting, IsCalled);
    FilterNone(called, IsWaiting);
  }

  /** The called token shown is the first one in queue order. */
  lemma DisplayedCalledIsFirst(tokens: seq<Token>, i: int)
    requires 0 <= i < |tokens| && IsCalled(tokens[i])
    requires forall j :: 0 <= j < i ==> !IsCalled(tokens[j])
    ensures Filter(DisplayTokens(tokens), IsCalled) == [tokens[i]]
  {
    var r := Find(tokens, IsCalled);
    var k :| 0 <= k < |tokens| && tokens[k] == r.value && IsCalled(tokens[k])
             && forall j :: 0 <= j < k ==> !IsCalled(tokens[j]);
    assert k == i;
  }

  /** A token survives the search when its id, or its queue's category name,
      contains the term, ignoring case. */
  predicate Kept(q: Queue, term: string, t: Token)
  {
    FieldMatches(t.tokenId, term) || FieldMatches(q.categoryName, term)
  }

  /** The displayed tokens of one queue, narrowed by the search (`q.tokens || []`). */
  function ShownTokens(q: Queue, term: string): seq<Token>
  {
    Filter(DisplayTokens(q.tokens.GetOr([])), t => Kept(q, term, t))
  }

  /** `{...q, tokens: ...}`: the queue with its shown tokens. */
  function Narrow(q: Queue, term: string): Queue
  {
    Queue(q.categoryName, Some(ShownTokens(q, term)))
  }

  /** Every queue narrowed, in order (the `map` step). */
  function NarrowAll(queues: seq<Queue>, term: string): (ns: seq<Queue>)
    ensures |ns| == |queues|
    ensures forall k :: 0 <= k < |queues| ==> ns[k] == Narrow(queues[k], term)
  {
    Map(queues, q => Narrow(q, term))
  }

  predicate NonEmptyQueue(q: Queue)
  {
    q.tokens.Some? && |q.tokens.value| > 0
  }

  /** `filteredLiveQueues`: every queue narrowed by the search, and the queues left
      without tokens dropped. Every shown token is waiting or called and matches
      the term; every queue with a shown token is listed. */
  function FilteredLiveQueues(queues: seq<Queue>, term: string): (r: seq<Queue>)
    ensures forall i :: 0 <= i < |r| ==> NonEmptyQueue(r[i])
    ensures forall i :: 0 <= i < |r| ==> exists k :: 0 <= k < |queues| && r[i] == Narrow(queues[k], term)
    ensures forall i :: 0 <= i < |r| ==> ShowsOnlyMatches(r[i], term)
    ensures forall k :: 0 <= k < |queues| && |ShownTokens(queues[k], term)| > 0 ==>
              Narrow(queues[k], term) in r
  {
    var r := Filter(NarrowAll(queues, term), NonEmptyQueue);
    LiveQueuesFromInput(queues, term, r);
    LiveQueuesShowMatches(queues, term, r);
    LiveQueuesComplete(queues, term, r);
    r
  }

  lemma LiveQueuesFromInput(queues: seq<Queue>, term: string, r: seq<Queue>)
    requires r == Filter(NarrowAll(queues, term), NonEmptyQueue)
    ensures forall i :: 0 <= i < |r| ==> NonEmptyQueue(r[i])
    ensures forall i :: 0 <= i < |r| ==> exists k :: 0 <= k < |queues| && r[i] == Narrow(queues[k], term)
  {
    var narrowed := NarrowAll(queues, term);
    forall i | 0 <= i < |r|
      ensures exists k :: 0 <= k < |queues| && r[i] == Narrow(queues[k], term)
    {
      assert r[i] in narrowed;
    }
  }

  lemma LiveQueuesShowMatches(queues: seq<Queue>, term: string, r: seq<Queue>)
    requires r == Filter(NarrowAll(queues, term), NonEmptyQueue)
    ensures forall i :: 0 <= i < |r| ==> ShowsOnlyMatches(r[i], term)
  {
    LiveQueuesFromInput(queues, term, r);
    forall i | 0 <= i < |r| ensures ShowsOnlyMatches(r[i], term) {
      var k :| 0 <= k < |queues| && r[i] == Narrow(queues[k], term);
      NarrowShowsOnlyMatches(queues[k], term);
    }
  }

  lemma LiveQueuesComplete(queues: seq<Queue>, term: string, r: seq<Queue>)
    requires r == Filter(NarrowAll(queues, term), NonEmptyQueue)
    ensures forall k :: 0 <= k < |queues| && |ShownTokens(queues[k], term)| > 0 ==>
              Narrow(queues[k], term) in r
  {
    var narrowed := NarrowAll(queues, term);
    forall k | 0 <= k < |queues| && |ShownTokens(queues[k], term)| > 0
      ensures Narrow(queues[k], term) in r
    {
      assert NonEmptyQueue(narrowed[k]);
    }
  }

  /** Every token the queue shows is waiting or called and matches the term. */
  predicate ShowsOnlyMatches(q: Queue, term: string)
  {
    forall j :: 0 <= j < |q.tokens.GetOr([])| ==>
      var t := q.tokens.value[j];
      (IsWaiting(t) || IsCalled(t)) && Kept(q, term, t)
  }

  lemma NarrowShowsOnlyMatches(q: Queue, term: string)
    ensures ShowsOnlyMatches(Narrow(q, term), term)
  {
    var shown := ShownTokens(q, term);
    forall j | 0 <= j < |shown| ensures IsWaiting(shown[j]) || IsCalled(shown[j]) {
      assert shown[j] in DisplayTokens(q.tokens.GetOr([]));
    }
  }

  /** The queue order is kept: the result for a concatenation of queue lists is
      the concatenation of the results. */
  lemma LiveQueuesAppend(a: seq<Queue>, b: seq<Queue>, term: string)
    ensures FilteredLiveQueues(a + b, term) == FilteredLiveQueues(a, term) + FilteredLiveQueues(b, term)
  {
    var na := NarrowAll(a, term);
    var nb := NarrowAll(b, term);
    NarrowAllAppend(a, b, term);
    FilterAppend(na, nb, NonEmptyQueue);
    assert FilteredLiveQueues(a + b, term) == Filter(na + nb, NonEmptyQueue);
  }

  lemma NarrowAllAppend(a: seq<Queue>, b: seq<Queue>, term: string)
    ensures NarrowAll(a + b, term) == NarrowAll(a, term) + NarrowAll(b, term)
  {
    MapAppend(a, b, q => Narrow(q, term));
  }

  /** A queue whose category name matches shows all of its displayed tokens. */
  lemma CategoryMatchShowsAll(q: Queue, term: string)
    requires FieldMatches(q.categoryName, term)
    ensures ShownTokens(q, term) == DisplayTokens(q.tokens.GetOr([]))
  {
    FilterAll(DisplayTokens(q.tokens.GetOr([])), t => Kept(q, term, t));
  }

  /** Typing more narrows the search: the tokens shown for a longer term are the
      tokens shown for any substring of it, narrowed by the longer term. */
  lemma LongerTermNarrows(q: Queue, shorter: string, longer: string)
    requires Text.Includes(longer, shorter)
    ensures Filter(ShownTokens(q, shorter), t => Kept(q, longer, t)) == ShownTokens(q, longer)
  {
    forall t | Kept(q, longer, t) ensures Kept(q, shorter, t) {
      if FieldMatches(t.tokenId, longer) {
        FieldMatchesNarrower(t.tokenId, shorter, longer);
      } else {
        FieldMatchesNarrower(q.categoryName, shorter, longer);
      }
    }
    FilterNarrower(DisplayTokens(q.tokens.GetOr([])), t => Kept(q, shorter, t), t => Kept(q, longer, t));
  }

  /** An example: a completed token is never shown, whatever the search. */
  lemma CompletedNeverShown(q: Queue, term: string)
    ensures forall t :: t in ShownTokens(q, term) ==> t.status != Some("completed")
  {
    forall t | t in ShownTokens(q, term) ensures t.status != Some("completed") {
      assert t in DisplayTokens(q.tokens.GetOr([]));
    }
  }

  // ---------------------------------------------------------------------------
  // `fetchScannerStatus`: the query string of this screen.

  const StatusPath: string := "scanner-status/"

  /** The place of a parameter in the monitor's query: `status`, then `from`, then `to`. */
  function StatusRank(p: string): nat
  {
    if |p| > 0 && p[0] == 's' then 0 else if |p| > 0 && p[0] == 'f' then 1 else 2
  }

  /** The query parameters, in order: `status` unless the filter is empty or
      "ALL", then `from` and `to` when set. */
  function StatusParams(filter: string, from: string, to: string): (ps: seq<string>)
    ensures |ps| <= 3
    ensures ("status=" + filter in ps) <==> filter != "" && filter != "ALL"
    ensures ("from=" + from in ps) <==> from != ""
    ensures ("to=" + to in ps) <==> to != ""
    ensures forall p :: p in ps ==> p == "status=" + filter || p == "from=" + from || p == "to=" + to
    ensures forall i, j :: 0 <= i < j < |ps| ==> StatusRank(ps[i]) < StatusRank(ps[j])
  {
    var st := "status=" + filter;
    var fr := "from=" + from;
    var tt := "to=" + to;
    assert st[0] == 's' && fr[0] == 'f' && tt[0] == 't';
    assert StatusRank(st) == 0 && StatusRank(fr) == 1 && StatusRank(tt) == 2;
    (if filter != "" && filter != "ALL" then [st] else [])
      + (if from != "" then [fr] else [])
      + (if to != "" then [tt] else [])
  }

  /** The URL: the bare path when no parameter is set, otherwise the path, "?" and
      the parameters joined by "&". */
  function MonitorStatusUrl(filter: string, from: string, to: string): (url: string)
    ensures Text.StartsWith(url, StatusPath)
    ensures url == StatusPath <==> StatusParams(filter, from, to) == []
  {
    var ps := StatusParams(filter, from, to);
    var url := if |ps| > 0 then StatusPath + "?" + Text.Join(ps, "&") else StatusPath;
    assert url[..|StatusPath|] == StatusPath;
    url
  }

  /** Reading the query back: when no value holds an "&", splitting what follows
      the "?" at "&" gives the parameters in order. */
  lemma MonitorQueryRoundTrip(filter: string, from: string, to: string)
    requires '&' !in filter && '&' !in from && '&' !in to
    requires StatusParams(filter, from, to) != []
    ensures var url := MonitorStatusUrl(filter, from, to);
      && |url| > |StatusPath| && url[|StatusPath|] == '?'
      && Text.Split(url[|StatusPath| + 1..], '&') == StatusParams(filter, from, to)
  {
    var ps := StatusParams(filter, from, to);
    var url := MonitorStatusUrl(filter, from, to);
    assert url == StatusPath + "?" + Text.Join(ps, "&");
    assert url[|StatusPath| + 1..] == Text.Join(ps, "&");
    StatusParamsNoAmp(filter, from, to);
    Text.SplitJoin(ps, '&');
  }

  /** No parameter holds an "&" when no value does: the names hold none. */
  lemma StatusParamsNoAmp(filter: string, from: string, to: string)
    requires '&' !in filter && '&' !in from && '&' !in to
    ensures forall k :: 0 <= k < |StatusParams(filter, from, to)| ==> '&' !in StatusParams(filter, from, to)[k]
  {
    var ps := StatusParams(filter, from, to);
    assert '&' !in "status=" && '&' !in "from=" && '&' !in "to=";
    forall k | 0 <= k < |ps|
      ensures '&' !in ps[k]
    {
      assert ps[k] in ps;
    }
  }

  // ---------------------------------------------------------------------------
  // `fetchTokenStatus` and `handleEmergency`.

  const VerifyPath: string := "tokens/verify-qr/"
  const EmergencyPath: string := "tokens/queue/emergency/"

  /** `fetchTokenStatus`: empty input sends nothing and keeps the shown status;
      otherwise one POST with the token id, after which the status is the answer
      or `null` if the lookup failed. */
  function TokenLookup(status: Value, input: string, answer: Result<Value, Value>): (r: (Value, Option<Request>))
    ensures r.1.None? <==> input == ""
    ensures input == "" ==> r.0 == status
    ensures r.1.Some? ==> r.1.value == Request(POST, VerifyPath, [("token_id", Str(input))])
    ensures input != "" && answer.Ok? ==> r.0 == answer.value
    ensures input != "" && answer.Err? ==> r.0 == Null
  {
    if input == "" then (status, None)
    else
      var req := Request(POST, VerifyPath, [("token_id", Str(input))]);
      match answer
      case Ok(d) => (d, Some(req))
      case Err(_) => (Null, Some(req))
  }

  /** A lookup forgets what was shown before: for a non-empty input the new status
      depends on the answer alone. */
  lemma TokenLookupForgetsStatus(s1: Value, s2: Value, input: string, answer: Result<Value, Value>)
    requires input != ""
    ensures TokenLookup(s1, input, answer) == TokenLookup(s2, input, answer)
  {
  }

  /** `handleEmergency`: the body is `{action, category_id: category || undefined}`. */
  function Emergency(action: string, category: string): (r: Request)
    ensures r.verb == POST && r.path == EmergencyPath
    ensures Keys(r.body) == ["action", "category_id"]
    ensures Lookup(r.body, "action") == Str(action)
  {
    Request(POST, EmergencyPath, [("action", Str(action)), ("category_id", Or(Str(category), Undefined))])
  }

  /** On the wire, an empty category sends no `category_id` at all (the
      serialiser drops `undefined` members); a chosen one is sent as is. */
  lemma EmergencyWire(action: string, category: string)
    ensures var w := WireFields(Emergency(action, category).body);
      && ("action", Str(action)) in w
      && (category == "" ==> forall e :: e in w ==> e.0 != "category_id")
      && (category != "" ==> ("category_id", Str(category)) in w)
  {
    var body := Emergency(action, category).body;
    assert body[0] == ("action", Str(action)) && body[0] in body;
    assert body[1] in body;
    if category == "" {
      forall e | e in WireFields(body) ensures e.0 != "category_id" {
        assert e in body && e.1 != Undefined;
      }
    }
  }
}

=== FILE: reader.dfy ===
/** What the `react-qr-reader` callback hands to a component: a result whose
    `text` may be missing, and an error object from the decoding library. */
module Reader {
  import opened Base
  import opened Js
  import opened Http

  /** The `result` argument, reduced to `result.text` (`None` when it is undefined). */
  datatype ScanResult = ScanResult(text: Option<string>)

  /** `!!result?.text`: a result is present and its text is non-empty. */
  predicate HasText(result: Option<ScanResult>)
  {
    result.Some? && result.value.text.Some? && result.value.text.value != ""
  }

  function TextOf(result: Option<ScanResult>): (t: string)
    requires HasText(result)
    ensures t != ""
  {
    result.value.text.value
  }

  /** The endpoint both scan pages post to. */
  const ScanCallPath: string := "/tokens/tokens/manual_call/"

  /** The manual-call request a scan page sends for a token in a category. */
  function ScanCall(tokenId: Value, categoryId: Value): Request
  {
    Request(POST, ScanCallPath, [("token_id", tokenId), ("category_id", categoryId)])
  }

  /** The toast a strict scan handler ends with. */
  datatype ScanReport<T> =
    | Silent            // nothing to report
    | Called(tokenId: T) // "Token <id> scanned & called!"
    | InvalidFormat     // "Invalid QR Code format."
    | NotJson           // "QR Code is not valid JSON."

  /** The `error` argument: its `message` and `name` properties, each possibly absent. */
  datatype ScannerError = ScannerError(message: Option<string>, name: Option<string>)
}

=== FILE: scan_variants.dfy ===
/** How the three QR scan handlers relate: the lenient page (`ScanQRCode.jsx`),
    the strict scanner page (`scanner/Scanqrcode.jsx`) and the scan tab of the
    queue screen (`queue-manage/activequeue.jsx`). */
module ScanVariants {
  import opened Base
  import opened Js
  import opened Http
  import opened Reader
  import LenientScan
  import StrictScan
  import ActiveQueue

  /** For JSON without a truthy `url`, whenever the strict page calls a token, the
      lenient page, given the same text, calls the same token in the same category. */
  lemma StrictCallImpliesLenientCall(d: string, parse: JsonParser, parseUrl: UrlParser,
                                     ss: StrictScan.StrictState, ls: LenientScan.ScanState,
                                     err: Option<ScannerError>, strictOk: bool, lenientOk: bool,
                                     t: Value, c: Value)
    requires parse(d).Some? && !Nullish(parse(d).value) && !Truthy(Prop(parse(d).value, "url"))
    requires StrictScan.HandleScan(ss, Some(d), parse, strictOk).request == Some(ScanCall(t, c))
    ensures LenientScan.HandleResult(ls, Some(ScanResult(Some(d))), err, parse, parseUrl, lenientOk).request
         == Some(ScanCall(t, c))
  {
    var p := parse(d).value;
    assert Truthy(Prop(p, "token_id")) && Truthy(Prop(p, "category_id"));
    LenientScan.TopLevelFieldsOverride(d, parse, parseUrl);
  }

  /** The converse fails: a payload with only a category is an invalid format for
      the strict page, but the lenient page calls the raw text as the token id. */
  lemma LenientCallsWhereStrictRefuses(parseUrl: UrlParser)
    ensures var d := "{\"category_id\":\"5\"}";
            var parse: JsonParser := (t: string) => Some(Obj([("category_id", Str("5"))]));
      && StrictScan.HandleScan(StrictScan.StrictState("", false), Some(d), parse, true).request == None
      && LenientScan.HandleResult(LenientScan.ScanState(Null, "", false), Some(ScanResult(Some(d))),
                                  None, parse, parseUrl, true).request
         == Some(ScanCall(Str(d), Str("5")))
  {
  }

  /** On non-empty text the queue screen's scan tab and the strict page agree on
      when to call and with which identifiers; only the endpoint path differs. */
  lemma QueueTabMatchesStrict(d: string, parse: JsonParser, form: ActiveQueue.ManualForm, tab: string,
                              ss: StrictScan.StrictState, queueAnswer: Result<Value, Value>, strictOk: bool)
    requires d != ""
    ensures var q := ActiveQueue.QrResult(form, tab, Some(ScanResult(Some(d))), parse, queueAnswer).2;
            var st := StrictScan.HandleScan(ss, Some(d), parse, strictOk).request;
      && (q.Some? <==> st.Some?)
      && (q.Some? ==> q.value.body == st.value.body && q.value.verb == st.value.verb)
      && (q.Some? ==> q.value.path == ActiveQueue.ManualCallPath && st.value.path == ScanCallPath)
  {
  }

  /** On non-empty text the scan tab reports what the strict page reports for a
      successful call, whatever its own call's answer: it does not wait for the
      call before its success toast. */
  lemma QueueTabReportMatchesStrict(d: string, parse: JsonParser, form: ActiveQueue.ManualForm, tab: string,
                                    ss: StrictScan.StrictState, queueAnswer: Result<Value, Value>)
    requires d != ""
    ensures ActiveQueue.QrResult(form, tab, Some(ScanResult(Some(d))), parse, queueAnswer).3
         == StrictScan.HandleScan(ss, Some(d), parse, true).report
  {
  }
}

=== FILE: scanner_status.dfy ===
/** The daily scanner status page (`queuemanagement.jsx`): the URL its
    `fetchScannerStatus` builds, the list it keeps from the answer, and how its
    query string differs from the queue monitor's. */
module ScannerStatus {
  import opened Base
  import opened Js
  import opened Http
  import Text
  import QueueMonitor
  import ActiveQueue

  /** `${API_BASE}scanner-status/?` with `API_BASE` = "/api/". */
  const StatusBase: string := "/api/scanner-status/?"

  /** `fetchScannerStatus`'s URL: the base, then `verification_status=<f>&` unless
      the filter is "ALL", then `start_date=<s>&` and `end_date=<e>&` when set. */
  function ManagementStatusUrl(filter: string, start: string, end: string): (url: string)
    ensures Text.StartsWith(url, StatusBase)
    ensures url[|url| - 1] == '?' || url[|url| - 1] == '&'
  {
    var url := StatusBase
      + (if filter != "ALL" then "verification_status=" + filter + "&" else "")
      + (if start != "" then "start_date=" + start + "&" else "")
      + (if end != "" then "end_date=" + end + "&" else "");
    assert url[..|StatusBase|] == StatusBase;
    url
  }

  /** The place of a parameter in this page's query: `verification_status`, then
      `start_date`, then `end_date`. */
  function ManagementRank(p: string): nat
  {
    if |p| > 0 && p[0] == 'v' then 0 else if |p| > 0 && p[0] == 's' then 1 else 2
  }

  /** The parameters the URL carries, in the order it writes them. */
  function ManagementParams(filter: string, start: string, end: string): (ps: seq<string>)
    ensures |ps| <= 3
    ensures ("verification_status=" + filter in ps) <==> filter != "ALL"
    ensures ("start_date=" + start in ps) <==> start != ""
    ensures ("end_date=" + end in ps) <==> end != ""
    ensures forall p :: p in ps ==>
              p == "verification_status=" + filter || p == "start_date=" + start || p == "end_date=" + end
    ensures forall i, j :: 0 <= i < j < |ps| ==> ManagementRank(ps[i]) < ManagementRank(ps[j])
  {
    var vs := "verification_status=" + filter;
    var sd := "start_date=" + start;
    var ed := "end_date=" + end;
    assert vs[0] == 'v' && sd[0] == 's' && ed[0] == 'e';
    assert ManagementRank(vs) == 0 && ManagementRank(sd) == 1 && ManagementRank(ed) == 2;
    (if filter != "ALL" then [vs] else [])
      + (if start != "" then [sd] else [])
      + (if end != "" then [ed] else [])
  }

  /** Writing a piece followed by "&" in front of a terminated list is joining
      one more piece. */
  lemma TerminatedCons(x: string, rest: seq<string>)
    ensures Text.Join([x] + rest + [""], "&") == x + "&" + Text.Join(rest + [""], "&")
  {
    var xs := [x] + rest + [""];
    assert xs[0] == x && xs[1..] == rest + [""];
  }

  /** One optional parameter: its text followed by "&" when present. */
  lemma OptionalPiece(present: bool, piece: string, rest: seq<string>)
    ensures Text.Join((if present then [piece] else []) + rest + [""], "&")
         == (if present then piece + "&" else "") + Text.Join(rest + [""], "&")
  {
    if present {
      TerminatedCons(piece, rest);
    } else {
      assert (if present then [piece] else []) + rest + [""] == rest + [""];
    }
  }

  /** The URL is the base followed by the parameters, each terminated by "&". */
  lemma UrlIsParams(filter: string, start: string, end: string)
    ensures ManagementStatusUrl(filter, start, end)
         == StatusBase + Text.Join(ManagementParams(filter, start, end) + [""], "&")
  {
    var vs := "verification_status=" + filter;
    var sd := "start_date=" + start;
    var ed := "end_date=" + end;
    var c := if end != "" then [ed] else [];
    var b := if start != "" then [sd] else [];
    var a := if filter != "ALL" then [vs] else [];
    var pa := if filter != "ALL" then vs + "&" else "";
    var pb := if start != "" then sd + "&" else "";
    var pc := if end != "" then ed + "&" else "";
    OptionalPiece(end != "", ed, []);
    assert c + [] == c;
    assert Text.Join([] + [""], "&") == "";
    assert Text.Join(c + [""], "&") == pc;
    OptionalPiece(start != "", sd, c);
    assert Text.Join(b + c + [""], "&") == pb + pc;
    OptionalPiece(filter != "ALL", vs, b + c);
    assert a + (b + c) == a + b + c;
    assert Text.Join(a + b + c + [""], "&") == pa + (pb + pc);
    assert ManagementParams(filter, start, end) == a + b + c;
    assert ManagementStatusUrl(filter, start, end) == StatusBase + pa + pb + pc;
    Regroup(StatusBase, pa, pb, pc);
  }

  lemma Regroup(w: string, x: string, y: string, z: string)
    ensures w + x + y + z == w + (x + (y + z))
  {
  }

  /** Reading the query back: when no value holds an "&", splitting what follows
      the "?" at "&" gives the parameters in order and one empty trailing piece;
      with no parameter the query is empty. */
  lemma ManagementQueryRoundTrip(filter: string, start: string, end: string)
    requires '&' !in filter && '&' !in start && '&' !in end
    ensures var url := ManagementStatusUrl(filter, start, end);
      Text.Split(url[|StatusBase|..], '&') == ManagementParams(filter, start, end) + [""]
  {
    var ps := ManagementParams(filter, start, end);
    var url := ManagementStatusUrl(filter, start, end);
    UrlIsParams(filter, start, end);
    assert url[|StatusBase|..] == Text.Join(ps + [""], "&");
    ParamsAvoidAmpersand(filter, start, end);
    var qs := ps + [""];
    forall k | 0 <= k < |qs| ensures '&' !in qs[k] {
      if k < |ps| {
        assert qs[k] == ps[k];
      } else {
        assert qs[k] == "";
      }
    }
    Text.SplitJoin(qs, '&');
  }

  /** No parameter holds an "&" when no value does. */
  lemma ParamsAvoidAmpersand(filter: string, start: string, end: string)
    requires '&' !in filter && '&' !in start && '&' !in end
    ensures forall k :: 0 <= k < |ManagementParams(filter, start, end)| ==>
              '&' !in ManagementParams(filter, start, end)[k]
  {
    var ps := ManagementParams(filter, start, end);
    NoAmpersand("verification_status=", filter);
    NoAmpersand("start_date=", start);
    NoAmpersand("end_date=", end);
    var a: seq<string> := if filter != "ALL" then ["verification_status=" + filter] else [];
    var b: seq<string> := if start != "" then ["start_date=" + start] else [];
    var c: seq<string> := if end != "" then ["end_date=" + end] else [];
    assert ps == a + b + c;
  }

  lemma NoAmpersand(name: string, value: string)
    requires '&' !in name && '&' !in value
    ensures '&' !in name + value
  {
  }

  /** The two screens disagree on an empty status filter: this page sends
      `verification_status=` with no value, the monitor sends no status at all.
      With nothing set, this page still ends its URL in "?", the monitor does not
      write one. */
  lemma QueryVariantsDiffer(start: string, end: string)
    ensures "verification_status=" in ManagementParams("", start, end)
    ensures "status=" !in QueueMonitor.StatusParams("", start, end)
    ensures ManagementStatusUrl("ALL", "", "") == StatusBase
    ensures QueueMonitor.MonitorStatusUrl("ALL", "", "") == QueueMonitor.StatusPath
  {
    assert "verification_status=" + "" == "verification_status=";
    assert "status=" + "" == "status=";
  }

  /** The list the page keeps: the normalised answer of a successful fetch; a
      failed fetch, or an answer whose `results` cannot be read, keeps the
      previous list (`None` is a rejected request). */
  function FetchScannerStatus(previous: Value, response: Option<Value>): (list: Value)
    ensures response.None? ==> list == previous
    ensures response.Some? && response.value.Arr? ==> list == response.value
    ensures response.Some? && Nullish(response.value) ==> list == previous
    ensures response.Some? && !response.value.Arr? && !Nullish(response.value) ==>
              list == Or(Prop(response.value, "results"), Arr([]))
  {
    match response
    case None => previous
    case Some(d) =>
      match ListOrResults(d)
      case Ok(items) => items
      case Err(_) => previous
  }

  /** This page reads the answer as the queue screen reads its token list: whenever
      the queue screen's reading succeeds, this page keeps the same list. */
  lemma StatusListMatchesQueueList(previous: Value, data: Value)
    requires ActiveQueue.ActiveList(data).Ok?
    ensures FetchScannerStatus(previous, Some(data)) == Arr(ActiveQueue.ActiveList(data).value)
  {
  }
}

=== FILE: search.dfy ===
/** The case-insensitive substring test shared by the search boxes of the queue
    monitor (`admin/queuemonitor.jsx`) and the admin token list
    (`admin/adminqr.jsx`): `field?.toLowerCase().includes(term.toLowerCase())`. */
module Search {
  import opened Base
  import Text

  /** A token as the token lists show it: each field is a string or absent. */
  datatype Token = Token(tokenId: Option<string>, categoryName: Option<string>, status: Option<string>)

  /** An absent field short-circuits the optional chain to `undefined`, which is
      falsy; a present one matches when its lower-cased text contains the
      lower-cased term. */
  predicate FieldMatches(field: Option<string>, term: string)
  {
    field.Some? && Text.Includes(Text.Lower(field.value), Text.Lower(term))
  }

  /** A longer term matches less: whatever matches `longer` also matches every
      substring of it. */
  lemma FieldMatchesNarrower(field: Option<string>, shorter: string, longer: string)
    requires Text.Includes(longer, shorter)
    requires FieldMatches(field, longer)
    ensures FieldMatches(field, shorter)
  {
    Text.LowerIncludes(longer, shorter);
    Text.IncludesTransitive(Text.Lower(field.value), Text.Lower(longer), Text.Lower(shorter));
  }

  /** The empty term matches exactly the present fields. */
  lemma FieldMatchesEmpty(field: Option<string>)
    ensures FieldMatches(field, "") <==> field.Some?
  {
    if field.Some? {
      Text.IncludesEmpty(Text.Lower(field.value));
    }
  }

  /** The test ignores the case of ASCII letters in the term and in the field. */
  lemma FieldMatchesCaseBlind(field: Option<string>, term: string)
    ensures FieldMatches(field, term) <==> FieldMatches(field, Text.Lower(term))
    ensures field.Some? ==> (FieldMatches(field, term) <==> FieldMatches(Some(Text.Lower(field.value)), term))
  {
    Text.LowerIdempotent(term);
    if field.Some? {
      Text.LowerIdempotent(field.value);
    }
  }
}

=== FILE: staff_management.dfy ===
/** The staff management screen (`Staffs.jsx`): the form validator, the payload
    and request the submit handler builds, the form the edit handler fills in from
    a staff record, and the staff-role filter of the listing. */
module StaffManagement {
  import opened Base
  import opened Js
  import opened Http
  import opened Lists

  /** The form. Text inputs and check boxes hold whatever the edit handler copied
      from a record, so they are arbitrary values; the category selection is always
      a list of option values. */
  datatype StaffForm = StaffForm(
    username: Value, email: Value, firstName: Value, lastName: Value, password: Value,
    categories: seq<string>,
    canScanQr: Value, canGenerateQr: Value, canViewAnalytics: Value, canVerifyQr: Value)

  const InitialForm: StaffForm :=
    StaffForm(Str(""), Str(""), Str(""), Str(""), Str(""), [], Bool(false), Bool(false), Bool(false), Bool(false))

  const UsernameMsg: string := "Username is required"
  const EmailMsg: string := "Email is required"
  const PasswordMsg: string := "Password is required"
  const CategoriesMsg: string := "Select at least one category"

  /** The keys an error object can carry. */
  const ErrorKeys: seq<string> := ["username", "email", "password", "categories"]

  /** `validate()`: one message per failed rule, in rule order. The password is
      demanded only when no staff member is being edited (`editingId` falsy). */
  function Validate(form: StaffForm, editingId: Value): (errs: Fields)
    ensures ("username" in Keys(errs)) <==> !Truthy(form.username)
    ensures ("email" in Keys(errs)) <==> !Truthy(form.email)
    ensures ("password" in Keys(errs)) <==> !Truthy(editingId) && !Truthy(form.password)
    ensures ("categories" in Keys(errs)) <==> |form.categories| == 0
    ensures forall i :: 0 <= i < |errs| ==> errs[i].0 in ErrorKeys
    ensures |errs| <= 4
  {
    var a: Fields := if !Truthy(form.username) then [("username", Str(UsernameMsg))] else [];
    var b: Fields := if !Truthy(form.email) then [("email", Str(EmailMsg))] else [];
    var c: Fields := if !Truthy(editingId) && !Truthy(form.password) then [("password", Str(PasswordMsg))] else [];
    var d: Fields := if |form.categories| == 0 then [("categories", Str(CategoriesMsg))] else [];
    ValidateKeys(a, b, c, d);
    a + b + c + d
  }

  lemma ValidateKeys(a: Fields, b: Fields, c: Fields, d: Fields)
    requires a == [] || a == [("username", Str(UsernameMsg))]
    requires b == [] || b == [("email", Str(EmailMsg))]
    requires c == [] || c == [("password", Str(PasswordMsg))]
    requires d == [] || d == [("categories", Str(CategoriesMsg))]
    ensures ("username" in Keys(a + b + c + d)) <==> a != []
    ensures ("email" in Keys(a + b + c + d)) <==> b != []
    ensures ("password" in Keys(a + b + c + d)) <==> c != []
    ensures ("categories" in Keys(a + b + c + d)) <==> d != []
    ensures forall i :: 0 <= i < |a + b + c + d| ==> (a + b + c + d)[i].0 in ErrorKeys
  {
    KeysAppend(a, b);
    KeysAppend(a + b, c);
    KeysAppend(a + b + c, d);
    PartKeys(a, "username", UsernameMsg);
    PartKeys(b, "email", EmailMsg);
    PartKeys(c, "password", PasswordMsg);
    PartKeys(d, "categories", CategoriesMsg);
    FourKeys(Keys(a), Keys(b), Keys(c), Keys(d));
  }

  /** A part holds its one key, or nothing. */
  lemma PartKeys(part: Fields, key: string, msg: string)
    requires part == [] || part == [(key, Str(msg))]
    ensures Keys(part) == if part == [] then [] else [key]
  {
  }

  /** The four possible keys are distinct, so each is present exactly when its part
      is. */
  lemma FourKeys(ka: seq<string>, kb: seq<string>, kc: seq<string>, kd: seq<string>)
    requires ka == [] || ka == ["username"]
    requires kb == [] || kb == ["email"]
    requires kc == [] || kc == ["password"]
    requires kd == [] || kd == ["categories"]
    ensures ("username" in ka + kb + kc + kd) <==> ka != []
    ensures ("email" in ka + kb + kc + kd) <==> kb != []
    ensures ("password" in ka + kb + kc + kd) <==> kc != []
    ensures ("categories" in ka + kb + kc + kd) <==> kd != []
    ensures forall i :: 0 <= i < |ka + kb + kc + kd| ==> (ka + kb + kc + kd)[i] in ErrorKeys
  {
    assert "username"[0] == 'u' && "email"[0] == 'e' && "password"[0] == 'p' && "categories"[0] == 'c';
    var ks := ka + kb + kc + kd;
    forall i | 0 <= i < |ks| ensures ks[i] in ErrorKeys {
      assert ks[i] in ka || ks[i] in kb || ks[i] in kc || ks[i] in kd;
    }
  }

  /** An edit never asks for a password; a creation asks for one exactly when the
      field is empty. */
  lemma PasswordOnlyOnCreate(form: StaffForm, editingId: Value)
    ensures Truthy(editingId) ==> "password" !in Keys(Validate(form, editingId))
    ensures !Truthy(editingId) ==> (("password" in Keys(Validate(form, editingId))) <==> !Truthy(form.password))
  {
  }

  /** A completely filled form passes, whether creating or editing. */
  lemma FilledFormPasses(form: StaffForm, editingId: Value)
    requires Truthy(form.username) && Truthy(form.email) && Truthy(form.password)
    requires |form.categories| > 0
    ensures Validate(form, editingId) == []
  {
  }

  /** The keys the payload carries, in order: the form's keys without
      `categories`, then `role` and `category_ids`. */
  const PayloadKeys: seq<string> := [
    "username", "email", "first_name", "last_name", "password",
    "can_scan_qr", "can_generate_qr", "can_view_analytics", "can_verify_qr",
    "role", "category_ids"]

  function CategoryIds(categories: seq<string>): (v: Value)
    ensures v.Arr? && |v.items| == |categories|
    ensures forall i :: 0 <= i < |categories| ==> v.items[i] == Str(categories[i])
  {
    Arr(seq(|categories|, i requires 0 <= i < |categories| => Str(categories[i])))
  }

  /** `{ ...form, role: 'staff', category_ids: form.categories }` with `categories`
      deleted. */
  function Payload(form: StaffForm): (p: Fields)
    ensures Keys(p) == PayloadKeys
    ensures "categories" !in Keys(p)
  {
    var p := [
      ("username", form.username), ("email", form.email),
      ("first_name", form.firstName), ("last_name", form.lastName),
      ("password", form.password),
      ("can_scan_qr", form.canScanQr), ("can_generate_qr", form.canGenerateQr),
      ("can_view_analytics", form.canViewAnalytics), ("can_verify_qr", form.canVerifyQr),
      ("role", Str("staff")), ("category_ids", CategoryIds(form.categories))];
    assert Keys(p) == PayloadKeys;
    p
  }

  /** The payload carries the identity fields of the form under their own keys. */
  lemma PayloadIdentity(form: StaffForm)
    ensures var p := Payload(form);
      && Lookup(p, "username") == form.username && Lookup(p, "email") == form.email
      && Lookup(p, "first_name") == form.firstName && Lookup(p, "last_name") == form.lastName
      && Lookup(p, "password") == form.password
  {
    var p := Payload(form);
    assert p[2].0 == "first_name" && p[3].0 == "last_name" && p[4].0 == "password";
    LookupAt(p, 2);
    LookupAt(p, 3);
    LookupAt(p, 4);
  }

  /** The four permission flags travel unchanged. */
  lemma PayloadPermissions(form: StaffForm)
    ensures var p := Payload(form);
      && Lookup(p, "can_scan_qr") == form.canScanQr && Lookup(p, "can_generate_qr") == form.canGenerateQr
      && Lookup(p, "can_view_analytics") == form.canViewAnalytics
      && Lookup(p, "can_verify_qr") == form.canVerifyQr
  {
    var p := Payload(form);
    assert p[5].0 == "can_scan_qr" && p[6].0 == "can_generate_qr";
    assert p[7].0 == "can_view_analytics" && p[8].0 == "can_verify_qr";
    LookupAt(p, 5);
    LookupAt(p, 6);
    LookupAt(p, 7);
    LookupAt(p, 8);
  }

  /** The role is always "staff", the selected categories go as `category_ids`,
      and no `categories` member is sent. */
  lemma PayloadRoleAndCategories(form: StaffForm)
    ensures var p := Payload(form);
      && Lookup(p, "role") == Str("staff")
      && Lookup(p, "category_ids") == CategoryIds(form.categories)
      && Lookup(p, "categories") == Undefined
  {
    var p := Payload(form);
    LookupPresent(p, "categories");
    assert p[9] == ("role", Str("staff")) && p[10] == ("category_ids", CategoryIds(form.categories));
    LookupAt(p, 9);
    LookupAt(p, 10);
  }

  /** What a submission did: the errors shown, the request sent (if any) and the
      form afterwards. */
  datatype Submission = Submission(errors: Fields, request: Option<Request>, form: StaffForm)

  /** `handleSubmit`: validation errors block the request; otherwise an edit (truthy
      `editingId`) is a PUT to `users/<id>/` and a creation a POST to `users/`, both
      with the payload; a successful save resets the form. */
  function Submit(form: StaffForm, editingId: Value, backendOk: bool): (s: Submission)
    ensures s.errors == Validate(form, editingId)
    ensures s.request.None? <==> |s.errors| > 0
    ensures s.request.Some? ==> s.request.value.body == Payload(form)
    ensures s.request.Some? && Truthy(editingId) ==>
              s.request.value.verb == PUT && s.request.value.path == "users/" + ToStr(editingId) + "/"
    ensures s.request.Some? && !Truthy(editingId) ==>
              s.request.value.verb == POST && s.request.value.path == "users/"
    ensures s.form == if s.request.Some? && backendOk then InitialForm else form
  {
    var errs := Validate(form, editingId);
    if |errs| > 0 then Submission(errs, None, form)
    else
      var req := if Truthy(editingId) then Request(PUT, "users/" + ToStr(editingId) + "/", Payload(form))
                 else Request(POST, "users/", Payload(form));
      Submission(errs, Some(req), if backendOk then InitialForm else form)
  }

  /** Every validation failure is caught before anything is sent. */
  lemma InvalidFormSendsNothing(form: StaffForm, editingId: Value, backendOk: bool)
    requires !Truthy(form.username) || !Truthy(form.email) || |form.categories| == 0
    ensures Submit(form, editingId, backendOk).request == None
  {
    var errs := Validate(form, editingId);
    if !Truthy(form.username) {
      assert "username" in Keys(errs);
    } else if !Truthy(form.email) {
      assert "email" in Keys(errs);
    } else {
      assert "categories" in Keys(errs);
    }
  }

  /** An id of 0 is falsy: saving the record being edited then creates a new one. */
  lemma ZeroIdCreates(form: StaffForm, backendOk: bool)
    requires Truthy(form.username) && Truthy(form.email) && Truthy(form.password)
    requires |form.categories| > 0
    ensures Submit(form, Num(0), backendOk).request == Some(Request(POST, "users/", Payload(form)))
  {
  }

  // ---------------------------------------------------------------------------
  // `handleEdit` and the listing.

  /** `staff.categories?.map(String) || []`: absent categories give the empty list;
      an array gives the `String` of each entry; anything else has no callable
      `map` and throws. */
  function EditCategories(cats: Value): (r: Result<seq<string>, Thrown>)
    ensures r.Err? <==> !Nullish(cats) && !cats.Arr?
    ensures Nullish(cats) ==> r == Ok([])
    ensures cats.Arr? ==> |r.value| == |cats.items|
                          && forall i :: 0 <= i < |cats.items| ==> r.value[i] == ToStr(cats.items[i])
  {
    if Nullish(cats) then Ok([])
    else if cats.Arr? then Ok(seq(|cats.items|, i requires 0 <= i < |cats.items| => ToStr(cats.items[i])))
    else Err(TypeError)
  }

  /** The listing reads `cat.id` and `cat.name`, so the categories of a staff
      record are objects; `String` turns every one of them into the same text,
      and two different categories become indistinguishable in the form. */
  lemma EditCategoriesOfObjects(a: Fields, b: Fields)
    ensures EditCategories(Arr([Obj(a), Obj(b)])) == Ok(["[object Object]", "[object Object]"])
  {
    var r := EditCategories(Arr([Obj(a), Obj(b)]));
    assert |r.value| == 2;
    assert r.value[0] == ToStr(Obj(a)) && r.value[1] == ToStr(Obj(b));
    assert r.value == ["[object Object]", "[object Object]"];
  }

  /** `handleEdit(staff)`: the form filled from the record with the password
      blanked, and the record's id as the new `editingId`. */
  function HandleEdit(staff: Value): (r: Result<(StaffForm, Value), Thrown>)
    ensures Nullish(staff) ==> r.Err?
    ensures !Nullish(staff) ==> (r.Err? <==> EditCategories(Prop(staff, "categories")).Err?)
    ensures r.Ok? ==> r.value.0.password == Str("") && r.value.1 == Prop(staff, "id")
    ensures r.Ok? ==> r.value.0.username == Prop(staff, "username") && r.value.0.email == Prop(staff, "email")
    ensures r.Ok? ==> r.value.0.firstName == Prop(staff, "first_name") && r.value.0.lastName == Prop(staff, "last_name")
    ensures r.Ok? ==> r.value.0.canScanQr == Prop(staff, "can_scan_qr")
                      && r.value.0.canGenerateQr == Prop(staff, "can_generate_qr")
                      && r.value.0.canViewAnalytics == Prop(staff, "can_view_analytics")
                      && r.value.0.canVerifyQr == Prop(staff, "can_verify_qr")
    ensures r.Ok? ==> Ok(r.value.0.categories) == EditCategories(Prop(staff, "categories"))
  {
    if Nullish(staff) then Err(TypeError)
    else match EditCategories(Prop(staff, "categories"))
      case Err(e) => Err(e)
      case Ok(cats) =>
        Ok((StaffForm(Prop(staff, "username"), Prop(staff, "email"),
                      Prop(staff, "first_name"), Prop(staff, "last_name"), Str(""), cats,
                      Prop(staff, "can_scan_qr"), Prop(staff, "can_generate_qr"),
                      Prop(staff, "can_view_analytics"), Prop(staff, "can_verify_qr")),
            Prop(staff, "id")))
  }

  /** Editing a record with a truthy id and then saving it unchanged never fails
      for want of a password, and sends a PUT to that record's path. */
  lemma EditThenSave(staff: Value, backendOk: bool)
    requires HandleEdit(staff).Ok?
    requires Truthy(Prop(staff, "id"))
    requires Truthy(Prop(staff, "username")) && Truthy(Prop(staff, "email"))
    requires Prop(staff, "categories").Arr? && |Prop(staff, "categories").items| > 0
    ensures var (form, id) := HandleEdit(staff).value;
            var s := Submit(form, id, backendOk);
      && s.errors == []
      && s.request == Some(Request(PUT, "users/" + ToStr(Prop(staff, "id")) + "/", Payload(form)))
  {
  }

  predicate IsStaff(user: Value)
  {
    !Nullish(user) && Prop(user, "role") == Str("staff")
  }

  /** `res.data.filter(user => user.role === 'staff')`: the answer must be an array
      (nothing else has a `filter` method) and every entry must allow the field
      access; the kept users are exactly those with role "staff", in order. */
  function StaffOnly(data: Value): (r: Result<seq<Value>, Thrown>)
    ensures r.Ok? <==> data.Arr? && forall i :: 0 <= i < |data.items| ==> !Nullish(data.items[i])
    ensures r.Ok? ==> forall i :: 0 <= i < |r.value| ==> IsStaff(r.value[i])
    ensures r.Ok? ==> forall i :: 0 <= i < |r.value| ==> r.value[i] in data.items
    ensures r.Ok? ==> forall i :: 0 <= i < |data.items| && IsStaff(data.items[i]) ==> data.items[i] in r.value
  {
    if !data.Arr? then Err(TypeError)
    else if exists i :: 0 <= i < |data.items| && Nullish(data.items[i]) then Err(TypeError)
    else Ok(Filter(data.items, IsStaff))
  }

  /** The filter keeps the answer's order: the staff users of two concatenated
      answers are those of the first followed by those of the second. */
  lemma StaffOnlyKeepsOrder(a: seq<Value>, b: seq<Value>)
    requires StaffOnly(Arr(a + b)).Ok?
    ensures StaffOnly(Arr(a)).Ok? && StaffOnly(Arr(b)).Ok?
    ensures StaffOnly(Arr(a + b)).value == StaffOnly(Arr(a)).value + StaffOnly(Arr(b)).value
  {
    assert forall i :: 0 <= i < |a| ==> a[i] == (a + b)[i];
    assert forall i :: 0 <= i < |b| ==> b[i] == (a + b)[|a| + i];
    FilterAppend(a, b, IsStaff);
  }

  /** `fetchStaffs`: the listing becomes the staff users of a successful answer;
      a rejected request or an answer the filter throws on keeps the old listing. */
  function FetchStaffs(staffs: seq<Value>, response: Option<Value>): (r: seq<Value>)
    ensures response.None? ==> r == staffs
    ensures response.Some? && StaffOnly(response.value).Err? ==> r == staffs
    ensures response.Some? && StaffOnly(response.value).Ok? ==> r == StaffOnly(response.value).value
  {
    match response
    case None => staffs
    case Some(d) =>
      match StaffOnly(d)
      case Ok(users) => users
      case Err(_) => staffs
  }
}

=== FILE: strict_scan.dfy ===
/** The strict QR scan handler of the scanner page (`handleScan` in
    `scanner/Scanqrcode.jsx`): the scanned text must be JSON carrying both
    `token_id` and `category_id`; there is no fallback to the raw text. */
module StrictScan {
  import opened Base
  import opened Js
  import opened Http
  import opened Reader

  /** The component's state: the last scanned text and the `loading` flag. */
  datatype StrictState = StrictState(scannedToken: string, loading: bool)

  type Report = ScanReport<Value>

  datatype StrictStep = StrictStep(state: StrictState, request: Option<Request>, report: Report)


  /** `handleScan(data)`. The raw data is recorded before parsing; a parse failure,
      a `null` payload (whose field access throws) and a rejected POST all land in
      the same `catch`. `backendOk` is the backend's answer when the POST is sent. */
  function HandleScan(s: StrictState, data: Option<string>, parse: JsonParser, backendOk: bool): (step: StrictStep)
    ensures data.None? || data == Some("") ==> step == StrictStep(s, None, Silent)
    ensures data.Some? && data.value != "" ==> step.state == StrictState(data.value, false)
    ensures step.request.Some? ==> step.request.value.verb == POST && step.request.value.path == ScanCallPath
    ensures step.request.Some? ==>
      var body := step.request.value.body;
      && |body| == 2 && body[0].0 == "token_id" && body[1].0 == "category_id"
      && Truthy(body[0].1) && Truthy(body[1].1)
    ensures step.report.Called? ==>
      backendOk && step.request.Some? && step.request.value.body[0].1 == step.report.tokenId
  {
    match data
    case None => StrictStep(s, None, Silent)
    case Some(d) =>
      if d == "" then StrictStep(s, None, Silent)
      else
        var done := StrictState(d, false);
        match parse(d)
        case None => StrictStep(done, None, NotJson)
        case Some(parsed) =>
          match Get(parsed, "token_id")
          case Threw => StrictStep(done, None, NotJson)
          case Got(tok) =>
            var cat := Prop(parsed, "category_id");
            if Truthy(tok) && Truthy(cat) then
              StrictStep(done, Some(ScanCall(tok, cat)), if backendOk then Called(tok) else NotJson)
            else StrictStep(done, None, InvalidFormat)
  }

  /** The reader callback: a present result is handed to `handleScan` with its
      text, and a present error raises the camera-permission toast. */
  function OnResult(s: StrictState, result: Option<ScanResult>, hasError: bool,
                    parse: JsonParser, backendOk: bool): (r: (StrictStep, bool))
    ensures r.1 == hasError
    ensures result.None? ==> r.0 == StrictStep(s, None, Silent)
    ensures result.Some? ==> r.0 == HandleScan(s, result.value.text, parse, backendOk)
  {
    var step := match result
      case None => StrictStep(s, None, Silent)
      case Some(res) => HandleScan(s, res.text, parse, backendOk);
    (step, hasError)
  }

  // ---------------------------------------------------------------------------
  // Properties of the strict decision tree.

  /** JSON with truthy `token_id` and `category_id` sends exactly one POST with
      those two values; the toast depends on the backend's answer only. */
  lemma BothFieldsCall(s: StrictState, d: string, parse: JsonParser, backendOk: bool)
    requires d != "" && parse(d).Some? && !Nullish(parse(d).value)
    requires Truthy(Prop(parse(d).value, "token_id")) && Truthy(Prop(parse(d).value, "category_id"))
    ensures var p := parse(d).value; var step := HandleScan(s, Some(d), parse, backendOk);
      && step.request == Some(ScanCall(Prop(p, "token_id"), Prop(p, "category_id")))
      && (backendOk ==> step.report == Called(Prop(p, "token_id")))
      && (!backendOk ==> step.report == NotJson)
  {
  }

  /** Parsed JSON missing either field is an invalid format, and nothing is sent. */
  lemma MissingFieldInvalid(s: StrictState, d: string, parse: JsonParser, backendOk: bool)
    requires d != "" && parse(d).Some? && !Nullish(parse(d).value)
    requires !Truthy(Prop(parse(d).value, "token_id")) || !Truthy(Prop(parse(d).value, "category_id"))
    ensures HandleScan(s, Some(d), parse, backendOk).request == None
    ensures HandleScan(s, Some(d), parse, backendOk).report == InvalidFormat
  {
  }

  /** Text that is not JSON, or JSON `null`, is reported as not JSON: no fallback. */
  lemma NonJsonRejected(s: StrictState, d: string, parse: JsonParser, backendOk: bool)
    requires d != ""
    requires parse(d).None? || Nullish(parse(d).value)
    ensures HandleScan(s, Some(d), parse, backendOk) == StrictStep(StrictState(d, false), None, NotJson)
  {
  }

  /** Every non-empty scan ends with `loading` cleared and the text recorded,
      whatever the outcome, and always ends with a toast. */
  lemma LoadingAlwaysCleared(s: StrictState, d: string, parse: JsonParser, backendOk: bool)
    requires d != ""
    ensures HandleScan(s, Some(d), parse, backendOk).state == StrictState(d, false)
    ensures HandleScan(s, Some(d), parse, backendOk).report != Silent
  {
  }
}

=== FILE: text.dfy ===
/** The string primitives the console relies on: `includes`, `startsWith`,
    `toLowerCase`, `Array.prototype.join`, `split` and decimal rendering of numbers. */
module Text {
  import opened Base

  /** `t` occurs in `s` starting at index `i`. */
  predicate OccursAt(s: string, t: string, i: int)
  {
    0 <= i && i + |t| <= |s| && s[i..i + |t|] == t
  }

  predicate StartsWith(s: string, p: string)
  {
    |p| <= |s| && s[..|p|] == p
  }

  /** `s.includes(t)`, computed by scanning `s` from the left. */
  predicate Includes(s: string, t: string)
    decreases |s|
  {
    StartsWith(s, t) || (|s| > 0 && Includes(s[1..], t))
  }

  /** An occurrence at any position is found by the left-to-right scan. */
  lemma {:induction false} OccursIncludes(s: string, t: string, i: int)
    requires OccursAt(s, t, i)
    ensures Includes(s, t)
    decreases i
  {
    if i == 0 {
      assert s[..|t|] == s[0..0 + |t|];
    } else {
      assert s[1..][i - 1..i - 1 + |t|] == s[i..i + |t|];
      OccursIncludes(s[1..], t, i - 1);
    }
  }

  /** The left-to-right scan only succeeds on a real occurrence. */
  lemma {:induction false} IncludesOccurs(s: string, t: string) returns (i: int)
    requires Includes(s, t)
    ensures OccursAt(s, t, i)
    decreases |s|
  {
    if StartsWith(s, t) {
      i := 0;
      assert s[0..0 + |t|] == s[..|t|];
    } else {
      var j := IncludesOccurs(s[1..], t);
      assert s[j + 1..j + 1 + |t|] == s[1..][j..j + |t|];
      i := j + 1;
    }
  }

  /** `Includes` agrees with the positional definition of a substring. */
  lemma IncludesIff(s: string, t: string)
    ensures Includes(s, t) <==> exists i :: OccursAt(s, t, i)
  {
    if Includes(s, t) {
      var i := IncludesOccurs(s, t);
    }
    if exists i :: OccursAt(s, t, i) {
      var i :| OccursAt(s, t, i);
      OccursIncludes(s, t, i);
    }
  }

  /** Substring is transitive: a piece of a piece of `s` is a piece of `s`. */
  lemma IncludesTransitive(s: string, u: string, t: string)
    requires Includes(s, u) && Includes(u, t)
    ensures Includes(s, t)
  {
    IncludesIff(s, u);
    IncludesIff(u, t);
    var i :| OccursAt(s, u, i);
    var j :| OccursAt(u, t, j);
    SliceOfSlice(s, i, i + |u|, j, j + |t|);
    assert OccursAt(s, t, i + j);
    IncludesIff(s, t);
  }

  lemma SliceOfSlice(s: string, a: int, b: int, c: int, d: int)
    requires 0 <= a <= b <= |s| && 0 <= c <= d <= b - a
    ensures s[a..b][c..d] == s[a + c..a + d]
  {
    assert forall k :: 0 <= k < d - c ==> s[a..b][c..d][k] == s[a + c + k];
  }

  /** Every string contains the empty string (`"abc".includes("")` is true). */
  lemma IncludesEmpty(s: string)
    ensures Includes(s, "")
  {
    assert OccursAt(s, "", 0);
    IncludesIff(s, "");
  }

  /** `toLowerCase` on one character; only ASCII letters are folded. */
  function LowerChar(c: char): char
  {
    if 'A' <= c <= 'Z' then (c as int + 32) as char else c
  }

  /** `s.toLowerCase()`: folds every character and keeps the length. */
  function Lower(s: string): (r: string)
    ensures |r| == |s|
    ensures forall i :: 0 <= i < |s| ==> r[i] == LowerChar(s[i])
  {
    if |s| == 0 then "" else [LowerChar(s[0])] + Lower(s[1..])
  }

  /** Lower-casing commutes with taking a slice. */
  lemma LowerSlice(s: string, i: int, j: int)
    requires 0 <= i <= j <= |s|
    ensures Lower(s)[i..j] == Lower(s[i..j])
  {
    var u := s[i..j];
    var l := Lower(s)[i..j];
    var ls := Lower(s);
    forall k | 0 <= k < |u| ensures l[k] == LowerChar(u[k]) {
      assert l[k] == ls[i + k] && u[k] == s[i + k];
    }
    LowerPointwise(u, l);
  }

  /** A string folded character by character is the folded string. */
  lemma LowerPointwise(a: string, b: string)
    requires |a| == |b|
    requires forall k :: 0 <= k < |a| ==> b[k] == LowerChar(a[k])
    ensures b == Lower(a)
  {
  }

  /** Lower-casing preserves containment. */
  lemma LowerIncludes(s: string, t: string)
    requires Includes(s, t)
    ensures Includes(Lower(s), Lower(t))
  {
    var i := IncludesOccurs(s, t);
    LowerSlice(s, i, i + |t|);
    assert s[i..i + |t|] == t;
    assert Lower(s)[i..i + |t|] == Lower(t);
    OccursIncludes(Lower(s), Lower(t), i);
  }

  /** Lower-casing is idempotent. */
  lemma LowerIdempotent(s: string)
    ensures Lower(Lower(s)) == Lower(s)
  {
  }

  /** `xs.join(sep)`: the elements separated by `sep`; the empty list gives "". */
  function Join(xs: seq<string>, sep: string): string
  {
    if |xs| == 0 then ""
    else if |xs| == 1 then xs[0]
    else xs[0] + sep + Join(xs[1..], sep)
  }

  /** `s.split(d)` for a one-character separator: the maximal pieces between separators. */
  function Split(s: string, d: char): (parts: seq<string>)
    ensures |parts| >= 1
    decreases |s|
  {
    if |s| == 0 then [""]
    else
      var rest := Split(s[1..], d);
      if s[0] == d then [""] + rest
      else [[s[0]] + rest[0]] + rest[1..]
  }

  /** A prefix free of separators sticks to the first piece. */
  lemma {:induction false} SplitPrefix(a: string, t: string, d: char)
    requires d !in a
    ensures Split(a + t, d) == [a + Split(t, d)[0]] + Split(t, d)[1..]
    decreases |a|
  {
    var p := Split(t, d);
    if |a| > 0 {
      assert a[0] in a;
      assert (a + t)[0] == a[0] != d;
      assert (a + t)[1..] == a[1..] + t;
      SplitPrefix(a[1..], t, d);
      assert [a[0]] + (a[1..] + p[0]) == a + p[0];
    } else {
      assert a + t == t;
      assert a + p[0] == p[0];
      assert p == [p[0]] + p[1..];
    }
  }

  /** Splitting a join recovers the pieces whenever no piece contains the separator:
      `split` is the inverse of `join` exactly on separator-free fields. */
  lemma {:induction false} SplitJoin(xs: seq<string>, d: char)
    requires |xs| >= 1
    requires forall k :: 0 <= k < |xs| ==> d !in xs[k]
    ensures Split(Join(xs, [d]), d) == xs
    decreases |xs|
  {
    if |xs| == 1 {
      SplitPrefix(xs[0], "", d);
      assert xs[0] + "" == xs[0];
    } else {
      var tail := Join(xs[1..], [d]);
      assert forall k :: 0 <= k < |xs| - 1 ==> d !in xs[1..][k] by {
        forall k | 0 <= k < |xs| - 1 ensures d !in xs[1..][k] {
          assert xs[1..][k] == xs[k + 1];
        }
      }
      SplitJoin(xs[1..], d);
      assert d !in xs[0];
      assert Join(xs, [d]) == xs[0] + ([d] + tail);
      SplitPrefix(xs[0], [d] + tail, d);
      assert ([d] + tail)[1..] == tail;
      assert Split([d] + tail, d) == [""] + Split(tail, d);
      assert xs[0] + "" == xs[0];
      assert xs == [xs[0]] + xs[1..];
    }
  }

  /** Two different lists that join to the same text: once a piece contains the
      separator, the joined text no longer determines the pieces. */
  lemma JoinNotInjective()
    ensures Join(["a,b"], ",") == Join(["a", "b"], ",")
    ensures ["a,b"] != ["a", "b"]
  {
  }

  function DigitChar(d: nat): char
    requires d < 10
  {
    ('0' as int + d) as char
  }

  predicate IsDigit(c: char)
  {
    '0' <= c <= '9'
  }

  /** The canonical decimal rendering of a natural number (`String(n)`). */
  function Decimal(n: nat): (r: string)
    ensures |r| >= 1
    ensures forall k :: 0 <= k < |r| ==> IsDigit(r[k])
    ensures |r| > 1 ==> r[0] != '0'
  {
    if n < 10 then [DigitChar(n)] else Decimal(n / 10) + [DigitChar(n % 10)]
  }

  /** `String(n)` for an integer, with a leading minus sign for negatives. */
  function IntToString(n: int): string
  {
    if n < 0 then "-" + Decimal(-n) else Decimal(n)
  }

  /** The value of a string of decimal digits. */
  function DigitsValue(s: string): nat
    requires forall k :: 0 <= k < |s| ==> IsDigit(s[k])
  {
    if |s| == 0 then 0
    else
      assert IsDigit(s[|s| - 1]);
      DigitsValue(s[..|s| - 1]) * 10 + (s[|s| - 1] as int - '0' as int)
  }

  /** The array index a property key denotes: a canonical decimal numeral
      (no sign, no leading zero), as JavaScript's array-index keys are. */
  function ParseIndex(k: string): Option<nat>
  {
    if |k| == 0 || (|k| > 1 && k[0] == '0') then None
    else if forall j :: 0 <= j < |k| ==> IsDigit(k[j]) then Some(DigitsValue(k))
    else None
  }

  lemma {:induction false} DigitsValueDecimal(n: nat)
    ensures DigitsValue(Decimal(n)) == n
  {
    if n >= 10 {
      var r := Decimal(n);
      assert r[..|r| - 1] == Decimal(n / 10);
      DigitsValueDecimal(n / 10);
    }
  }

  lemma {:induction false} DecimalDigitsValue(s: string)
    requires |s| >= 1 && forall k :: 0 <= k < |s| ==> IsDigit(s[k])
    requires |s| > 1 ==> s[0] != '0'
    ensures Decimal(DigitsValue(s)) == s
    decreases |s|
  {
    if |s| > 1 {
      var p := s[..|s| - 1];
      DecimalDigitsValue(p);
      assert Decimal(0) == "0";
      assert p[0] == s[0] != '0';
      assert s == p + [s[|s| - 1]];
    }
  }

  /** Index keys and their rendering are inverse to each other: the key of element
      `n` names element `n`, and a key that names an element is that element's key. */
  lemma IndexKeyRoundTrip(n: nat, k: string)
    ensures ParseIndex(Decimal(n)) == Some(n)
    ensures ParseIndex(k) == Some(n) ==> Decimal(n) == k
  {
    DigitsValueDecimal(n);
    if ParseIndex(k) == Some(n) {
      DecimalDigitsValue(k);
    }
  }
}
